=== FILE: README.md ===
# VKTS scene graph — a Dafny model

This project models the core of the VKTS scene graph (VulKan ToolS), its glTF 1.0
importer, and the pure helpers of its Blender exporter. All of it is written as immutable
datatypes and pure functions, with loops kept as methods where the source's loop structure
matters. The core is:

- **Copy constraints** (`copy_constraint.dfy`, module `CopyConstraint`). A constraint copies
  the location, rotation or scale of a target node's decomposed world matrix into a
  node's final transform. This happens axis by axis, weighted by an influence, optionally
  negated per axis, and either replacing or offsetting the prior value.
- **The scene container** (`scene.dfy`, module `Scene`):
  - ordered object, camera and light lists with append, remove-first and first-match lookup;
  - the strided object partition `for (i = offset; i < min(count, limit); i += step)` that
    `updateTransformRecursive` and `visitRecursive` share. `updateParameterRecursive`,
    `updateDescriptorSetsRecursive` and `drawRecursive` are `visitRecursive` with a
    particular visitor, so `VisitRecursive` stands for all three;
  - the visitor chain;
  - all-or-nothing cloning with shared environment textures;
  - destruction order.
- **The descriptor-set update visitor** (`update_descriptor_sets.dfy`, module
  `UpdateDescriptorSets`). A caller-owned array of write records is patched with each
  node's transform and bone-transform writes and with each material's writes (the last
  valid match wins). The valid entries are sent in one batch, retargeted to the material's
  per-node set.
- **The BSDF material** (`bsdf_material.dfy`, module `BSDFMaterial`):
  - its texture list and per-slot image writes;
  - the merge of a write template with those writes, which stops when the textures run out;
  - binding through the render-overwrite chain;
  - clone and destroy.
- **The glTF loader** (`gltf_load.dfy`, module `GltfLoad`):
  - primitives become sub-meshes, with the primitive mode mapped to a topology;
  - glTF nodes become scene-graph nodes: their transform, skin (armature), joint index
    resolved through the nearest armature ancestor, meshes named `name_Mesh_i` and
    `name_SubMesh_k`, and children followed by skeletons;
  - root detection;
  - one object per root node of the chosen scene.
- **Exporter helpers** (`export_vkts.dfy`, module `ExportVkts`):
  - name sanitising;
  - channel and element naming by data-path suffix;
  - bone-name extraction from a data path;
  - the Z-up to Y-up axis conversions;
  - the dependency-ordered insertion into the open-node queue;
  - the eight-slot bone padding of skinned vertices.

Shared definitions:

- `wrappers.dfy`: `Option`, used for null pointers and failure.
- `lists.dfy`: first index and remove-first.
- `vectors.dfy`: `Vec3` and `Mat4`. The matrix decompositions are left uninterpreted, as
  fields of a `Decomposer` record.
- `descriptors.dfy`: the write record, reduced to validity, binding, count, payload and
  target set.
- `scene_graph.dfy`: the node, mesh, sub-mesh, material, object and scene datatypes.

Calls into code outside the core are parameters of the operations that need them. These are:

- `createDescriptorSetsByName` and `getDescriptorSetsByName`;
- `prepareJointsUniformBuffer`;
- the clone operations of objects, cameras and lights;
- the answers of visitor and render-overwrite chains;
- the matrix decompositions and the quaternion-to-matrix conversion;
- `math.degrees`.

Three behaviours of the source worth knowing:

- `CopyConstraint.Apply` reports failure (`false`) when the constraint has no target
  (VKTS/src/layer1/scenegraph/CopyConstraint.cpp:107-110); it is not a successful no-op.
- `UpdateDescriptorSets.UpdateMaterial` writes a material's records only into template
  entries whose binding they match
  (VKTS_PKG_Scenegraph/src/scenegraph/visitor/UpdateDescriptorSets.cpp:48-55). It never adds
  the material's other bindings to the batch.
- `GltfLoad.ResolveJointIndex` looks up the node's own name in the armature's joint list
  (VKTS_PKG_Scenegraph/src/scenegraph/load/fn_gltf_load.cpp:235). The glTF `jointName`
  property only decides whether the lookup happens.

## Model

| member | source | states |
|---|---|---|
| CopyConstraint.New | VKTS/src/layer1/scenegraph/CopyConstraint.cpp:32-35 | a new constraint has the given kind, no target, no used or inverted axis, no offset, influence 0 |
| CopyConstraint.Copy | VKTS/src/layer1/scenegraph/CopyConstraint.cpp:37-40 | the copy duplicates every field and shares the target reference |
| CopyConstraint.Clone | VKTS/src/layer1/scenegraph/CopyConstraint.cpp:184-187 | a clone equals the original, target included |
| CopyConstraint.SetTarget | VKTS/src/layer1/scenegraph/CopyConstraint.cpp:56-59 | sets the target and leaves every other field as it was |
| CopyConstraint.SetUse | VKTS/src/layer1/scenegraph/CopyConstraint.cpp:66-69 | sets the axis mask and leaves every other field as it was |
| CopyConstraint.SetOffset | VKTS/src/layer1/scenegraph/CopyConstraint.cpp:76-79 | sets the offset flag and leaves every other field as it was |
| CopyConstraint.SetInvert | VKTS/src/layer1/scenegraph/CopyConstraint.cpp:86-89 | sets the inversion mask and leaves every other field as it was |
| CopyConstraint.SetInfluence | VKTS/src/layer1/scenegraph/CopyConstraint.cpp:96-99 | sets the influence and leaves every other field as it was |
| CopyConstraint.KindFixedForever | VKTS/src/layer1/scenegraph/CopyConstraint.hpp:52-76 | whatever sequence of setters runs after construction, the kind chosen at construction remains (no setter for it; assignment and move are deleted) |
| CopyConstraint.Apply | VKTS/src/layer1/scenegraph/CopyConstraint.cpp:105-178 | success iff there is a target; no target or influence 0 changes nothing; only the vector of the constraint's kind changes; unused axes keep their value; each used axis becomes (prior value when offsetting, else 0) plus the target's decomposed value times the influence, negated when that axis is inverted |
| CopyConstraint.FreshConstraintIsInert | VKTS/src/layer1/scenegraph/CopyConstraint.cpp:107-110 | applying a freshly built constraint fails and leaves the node as it was |
| CopyConstraint.FullCopyLocation | VKTS/src/layer1/scenegraph/CopyConstraint.cpp:122-175 | copy-location on all axes with influence 1, no inversion and no offset puts the target's decomposed translation into the final translate and nothing else |
| SceneGraph.EmptyScene | VKTS_PKG_Scenegraph/src/scenegraph/scene/Scene.cpp:38-41 | a new scene has an empty name, empty lists and no environment textures |
| Lists.IndexOf | VKTS_PKG_Scenegraph/src/scenegraph/load/fn_gltf_load.cpp:235 | the position of the first entry equal to the element, none iff it does not occur (the container's `index`, used for the joint lookup) |
| Lists.RemoveFirst | VKTS_PKG_Scenegraph/src/scenegraph/scene/Scene.cpp:158-161 | reports true iff the element occurs; then its first occurrence leaves and the others keep their order (the container's `remove`, used by every removal) |
| Scene.FindObject | VKTS_PKG_Scenegraph/src/scenegraph/scene/Scene.cpp:163-174 | nothing iff no object carries the name; otherwise a listed object with that name |
| Scene.FirstNamedFrom | VKTS_PKG_Scenegraph/src/scenegraph/scene/Scene.cpp:165-173 | the scan returns the first position carrying the name, or nothing when none does |
| Scene.FindCamera | VKTS_PKG_Scenegraph/src/scenegraph/scene/Scene.cpp:197-208 | nothing iff no camera carries the name; otherwise a listed camera with that name |
| Scene.FindLight | VKTS_PKG_Scenegraph/src/scenegraph/scene/Scene.cpp:231-242 | nothing iff no light carries the name; otherwise a listed light with that name |
| Scene.AddObject | VKTS_PKG_Scenegraph/src/scenegraph/scene/Scene.cpp:153-156 | appends the object; cameras, lights and name unchanged |
| Scene.AddCamera | VKTS_PKG_Scenegraph/src/scenegraph/scene/Scene.cpp:187-190 | appends the camera; objects, lights and name unchanged |
| Scene.AddLight | VKTS_PKG_Scenegraph/src/scenegraph/scene/Scene.cpp:221-224 | appends the light; objects, cameras and name unchanged |
| Scene.FindAfterAdd | VKTS_PKG_Scenegraph/src/scenegraph/scene/Scene.cpp:153-174 | after an append, lookup still finds the earlier first match, and finds the new object only when no earlier one had the name |
| Scene.RemoveObject | VKTS_PKG_Scenegraph/src/scenegraph/scene/Scene.cpp:158-161 | reports true iff the object was listed; then its first occurrence (identity included) leaves and the other entries keep their order; otherwise nothing changes; the other lists and the name are kept |
| Scene.RemoveObjectAt | VKTS_PKG_Scenegraph/src/scenegraph/scene/Scene.cpp:158-161 | the shared-pointer removal tells objects apart by identity: removing the object at position i, when no other entry shares its identity, takes out exactly that position, even next to a same-named object with the same root |
| Scene.RemoveCamera | VKTS_PKG_Scenegraph/src/scenegraph/scene/Scene.cpp:192-195 | reports true iff the camera was listed; then its first occurrence leaves and the other entries keep their order; otherwise nothing changes; the other lists and the name are kept |
| Scene.RemoveLight | VKTS_PKG_Scenegraph/src/scenegraph/scene/Scene.cpp:226-229 | reports true iff the light was listed; then its first occurrence leaves and the other entries keep their order; otherwise nothing changes; the other lists and the name are kept |
| Scene.AddThenRemoveObject | VKTS_PKG_Scenegraph/src/scenegraph/scene/Scene.cpp:153-161 | removing an object just added (not listed before) restores the scene and reports true |
| Scene.AddThenRemoveCamera | VKTS_PKG_Scenegraph/src/scenegraph/scene/Scene.cpp:187-195 | removing a camera just added (not listed before) restores the scene and reports true |
| Scene.AddThenRemoveLight | VKTS_PKG_Scenegraph/src/scenegraph/scene/Scene.cpp:221-229 | removing a light just added (not listed before) restores the scene and reports true |
| Scene.Partition | VKTS_PKG_Scenegraph/src/scenegraph/scene/Scene.cpp:344-352 | step 0 visits nothing; the loop visits exactly the indices i with offset <= i < min(count, limit) and i ≡ offset (mod step), ascending, the k-th being offset + k*step |
| Scene.SelectedMembers | VKTS_PKG_Scenegraph/src/scenegraph/scene/Scene.cpp:349 | an index is visited iff it lies in [offset, bound) and is congruent to offset modulo step |
| Scene.SelectedIncreasing | VKTS_PKG_Scenegraph/src/scenegraph/scene/Scene.cpp:349 | the visited indices ascend strictly, so none is visited twice |
| Scene.SelectedProgression | VKTS_PKG_Scenegraph/src/scenegraph/scene/Scene.cpp:349 | the k-th visited index is offset + k*step |
| Scene.PartitionsCoverOnce | VKTS_PKG_Scenegraph/src/scenegraph/scene/Scene.cpp:315 | workers with offsets 0..step-1 and a common step together visit every index below the bound exactly once |
| Scene.UpdateTransformRecursive | VKTS_PKG_Scenegraph/src/scenegraph/scene/Scene.cpp:308-319 | updates exactly the objects of the partition, all of them existing objects, in ascending order; step 0 updates none |
| Scene.VisitRecursive | VKTS_PKG_Scenegraph/src/scenegraph/scene/Scene.cpp:328-353 | the scene hooks run in chain order up to and including the first one answering false, which ends the traversal; when all answer true the partition's objects are visited in ascending order |
| Scene.CloneList | VKTS_PKG_Scenegraph/src/scenegraph/scene/Scene.cpp:46-71 | one list of the copy: it fails iff some element's clone fails, and then the list is empty; otherwise each entry is the clone of the entry at the same position |
| Scene.CopyScene | VKTS_PKG_Scenegraph/src/scenegraph/scene/Scene.cpp:43-131 | the copy constructor: lists cloned element by element, environment textures shared, name cleared when any clone failed and suffixed "_clone" otherwise |
| Scene.Clone | VKTS_PKG_Scenegraph/src/scenegraph/scene/Scene.cpp:359-380 | a clone exists iff every object, camera and light clones; it then has the same counts, each object, camera and light the clone of the entry at the same position, the shared textures and the name with "_clone" |
| Scene.Destroy | VKTS_PKG_Scenegraph/src/scenegraph/scene/Scene.cpp:386-425 | releases LUT, specular, diffuse and environment textures (those present, in that order), then every object in order; afterwards all lists are empty and no texture is held |
| Scene.DestroyTwice | VKTS_PKG_Scenegraph/src/scenegraph/scene/Scene.cpp:386-425 | destroying a destroyed scene releases nothing and changes nothing |
| UpdateDescriptorSets.New | VKTS_PKG_Scenegraph/src/scenegraph/visitor/UpdateDescriptorSets.cpp:71-74 | the visitor keeps the caller's template and starts with an empty node name |
| UpdateDescriptorSets.OverrideNode | VKTS_PKG_Scenegraph/src/scenegraph/visitor/UpdateDescriptorSets.cpp:84-102 | entries at neither slot are untouched; with distinct slots, an entry at the transform (bone-transform) slot becomes the node's write exactly when that write is valid and bound there |
| UpdateDescriptorSets.LastValidAt | VKTS_PKG_Scenegraph/src/scenegraph/visitor/UpdateDescriptorSets.cpp:48-55 | the material write that ends up in an entry is the last valid one with the entry's binding, or none |
| UpdateDescriptorSets.OverrideByMaterial | VKTS_PKG_Scenegraph/src/scenegraph/visitor/UpdateDescriptorSets.cpp:48-55 | a patched entry keeps its binding and is either unchanged or one of the material's writes |
| UpdateDescriptorSets.Gathered | VKTS_PKG_Scenegraph/src/scenegraph/visitor/UpdateDescriptorSets.cpp:57-66 | the batch holds valid writes only, all aimed at the target set, and is never longer than the template |
| UpdateDescriptorSets.GatheredMeaning | VKTS_PKG_Scenegraph/src/scenegraph/visitor/UpdateDescriptorSets.cpp:57-66 | each batched write is a valid template entry retargeted to the set, and every valid entry is batched |
| UpdateDescriptorSets.OverrideEntry | VKTS_PKG_Scenegraph/src/scenegraph/visitor/UpdateDescriptorSets.cpp:48-55 | the inner loop leaves an entry replaced by the last valid material write with the same binding, and untouched when there is none |
| UpdateDescriptorSets.UpdateMaterial | VKTS_PKG_Scenegraph/src/scenegraph/visitor/UpdateDescriptorSets.cpp:32-69 | without a set nothing changes and nothing is sent; otherwise the template becomes the material-merged template and one batch goes to the set, holding its valid entries in order |
| UpdateDescriptorSets.UpdateMaterialState | VKTS_PKG_Scenegraph/src/scenegraph/visitor/UpdateDescriptorSets.cpp:32-69 | the visitor state after one material: one more update when a set exists, none otherwise; name and template length kept |
| UpdateDescriptorSets.VisitMaterial | VKTS_PKG_Scenegraph/src/scenegraph/visitor/UpdateDescriptorSets.cpp:119-131 | both material hooks run the material update and let the traversal continue |
| UpdateDescriptorSets.VisitMaterials | VKTS_PKG_Scenegraph/src/scenegraph/visitor/UpdateDescriptorSets.cpp:106-109 | one update per material with an available set, earlier updates kept, each into a set of one of those materials for the current node name |
| UpdateDescriptorSets.VisitNode | VKTS_PKG_Scenegraph/src/scenegraph/visitor/UpdateDescriptorSets.cpp:82-117 | the node hook never lets the driver descend again; earlier updates are kept and every batch only carries valid writes aimed at its own set |
| UpdateDescriptorSets.VisitChildren | VKTS_PKG_Scenegraph/src/scenegraph/visitor/UpdateDescriptorSets.cpp:111-114 | visiting the children keeps earlier updates and the template length |
| UpdateDescriptorSets.OwnMaterialsUseNodeName | VKTS_PKG_Scenegraph/src/scenegraph/visitor/UpdateDescriptorSets.cpp:104-109 | the name is recorded before descending, so the node's own materials' updates come first and use the node's own name |
| UpdateDescriptorSets.VisitMaterialsFirst | VKTS_PKG_Scenegraph/src/scenegraph/visitor/UpdateDescriptorSets.cpp:32-69 | the first material with a set issues the first update: the template merged with its writes, gathered into its set |
| UpdateDescriptorSets.VisitNodeOwnFirst | VKTS_PKG_Scenegraph/src/scenegraph/visitor/UpdateDescriptorSets.cpp:82-117 | a node visit first issues its own materials' updates, from the template patched with the node's transform and bone-transform writes under the node's name; the first of them is that template merged with the first material's writes, gathered; the children's updates follow |
| BSDFMaterial.New | VKTS_Scenegraph/src/scenegraph/scene/BSDFMaterial.cpp:32-35 | a new material has vertex and normal attributes, no textures, no shader, an empty name |
| BSDFMaterial.AddTextureObject | VKTS_Scenegraph/src/scenegraph/scene/BSDFMaterial.cpp:91-100 | always appends, even a null texture; a live texture records its image write at slot = previous count, bound at the forward or deferred first sampler plus that slot; other slots kept |
| BSDFMaterial.RemoveTextureObject | VKTS_Scenegraph/src/scenegraph/scene/BSDFMaterial.cpp:102-105 | reports true iff the texture was listed; then its first occurrence leaves and the other entries keep their order; otherwise nothing changes; slot writes, name, flag, shader and attributes stay |
| BSDFMaterial.AddThenRemoveTexture | VKTS_Scenegraph/src/scenegraph/scene/BSDFMaterial.cpp:91-105 | removing a texture just added (not listed before) gives back the texture list and reports true; the slot write the add recorded stays |
| BSDFMaterial.AddedTextureVisible | VKTS_Scenegraph/src/scenegraph/scene/BSDFMaterial.cpp:91-100 | in the base-class write array the visitor reads, a live texture just added appears at its slot and the earlier slots are unchanged |
| BSDFMaterial.Copy | VKTS_Scenegraph/src/scenegraph/scene/BSDFMaterial.cpp:37-44 | name + "_clone", same flag, shader and attributes, the same texture list, and every live texture's slot write re-recorded |
| BSDFMaterial.Clone | VKTS_Scenegraph/src/scenegraph/scene/BSDFMaterial.cpp:226-236 | a returned clone has as many textures as the original |
| BSDFMaterial.CloneNeverFails | VKTS_Scenegraph/src/scenegraph/scene/BSDFMaterial.cpp:226-236 | since adding always appends, the count check never fires: the clone exists, with the same textures and the "_clone" name |
| BSDFMaterial.MergeFrom | VKTS_Scenegraph/src/scenegraph/scene/BSDFMaterial.cpp:153-177 | the merged batch is no longer than the template, consumes at most all textures, and aims every write at the target set |
| BSDFMaterial.MergeFromMeaning | VKTS_Scenegraph/src/scenegraph/scene/BSDFMaterial.cpp:153-177 | output position j stands for template entry j; valid entries with a count are kept (retargeted), the others replaced by the next unused texture slot write |
| BSDFMaterial.MergeFromUsage | VKTS_Scenegraph/src/scenegraph/scene/BSDFMaterial.cpp:166-176 | the texture counter advances once per replaced entry, and the batch stops early only at a replaceable entry once every texture is used |
| BSDFMaterial.MergeLoopStep | VKTS_Scenegraph/src/scenegraph/scene/BSDFMaterial.cpp:153-177 | one iteration of the loop: a kept entry or a slot write extends the batch towards the merged result, and the break leaves the batch already complete |
| BSDFMaterial.UpdateDescriptorSetsRecursive | VKTS_Scenegraph/src/scenegraph/scene/BSDFMaterial.cpp:137-180 | when the set lookup by node name yields nothing, nothing is sent; otherwise the loop with its early break sends exactly the merged batch to that set, no longer than the template and aimed at the set |
| BSDFMaterial.AllKeptPassThrough | VKTS_Scenegraph/src/scenegraph/scene/BSDFMaterial.cpp:156-163 | a template of valid, non-empty entries passes through, retargeted, consuming no texture |
| BSDFMaterial.BindDescriptorSets | VKTS_Scenegraph/src/scenegraph/scene/BSDFMaterial.cpp:182-197 | binds nothing iff there is no command buffer or no set for the node; otherwise binds exactly that set, into the command buffer at the given index |
| BSDFMaterial.BindDrawIndexedRecursiveAsWritten | VKTS_Scenegraph/src/scenegraph/scene/BSDFMaterial.cpp:199-220 | an overwrite answering false, or a null pipeline, binds nothing; with a live pipeline the source crashes (null dereference) iff the command buffer is null; otherwise the pipeline goes into the unindexed command buffer, then the node's descriptor set into the indexed one |
| BSDFMaterial.NullBufferBreaksBind | VKTS_Scenegraph/src/scenegraph/scene/BSDFMaterial.cpp:213-217 | a null command buffer with a live pipeline and no overwrites reaches the dereference |
| BSDFMaterial.BindDrawIndexedRecursive | VKTS_Scenegraph/src/scenegraph/scene/BSDFMaterial.cpp:199-220 | corrected version: an aborting overwrite, a null pipeline or a null command buffer binds nothing; otherwise the pipeline, then the node's descriptor set |
| BSDFMaterial.BindAgreesWithoutCrash | VKTS_Scenegraph/src/scenegraph/scene/BSDFMaterial.cpp:199-220 | wherever the source does not crash, the corrected version binds exactly what the source binds |
| BSDFMaterial.DestroyAsWritten | VKTS_Scenegraph/src/scenegraph/scene/BSDFMaterial.cpp:243-258 | destroy as written fails (null dereference) iff a texture entry is null |
| BSDFMaterial.NullTextureBreaksDestroy | VKTS_Scenegraph/src/scenegraph/scene/BSDFMaterial.cpp:250-253 | a material holding the null texture that addTextureObject accepts makes destroy dereference null |
| BSDFMaterial.Destroy | VKTS_Scenegraph/src/scenegraph/scene/BSDFMaterial.cpp:243-258 | corrected destroy: shader first if present, base material last, and a texture is destroyed iff it is a live entry |
| BSDFMaterial.DestroyAgreesWithoutNull | VKTS_Scenegraph/src/scenegraph/scene/BSDFMaterial.cpp:243-258 | without null entries the corrected destroy performs exactly the source's teardown |
| GltfLoad.Int32Cast | VKTS_PKG_Scenegraph/src/scenegraph/load/fn_gltf_load.cpp:41 | the (int32_t) cast wraps modulo 2^32 into the signed range and is the identity below 2^31 |
| GltfLoad.NatToStringInjective | VKTS_PKG_Scenegraph/src/scenegraph/load/fn_gltf_load.cpp:259 | different indices print as different decimal strings |
| GltfLoad.MeshNamesDistinct | VKTS_PKG_Scenegraph/src/scenegraph/load/fn_gltf_load.cpp:259 | the meshes of one node get pairwise different names |
| GltfLoad.SubMeshNamesCollide | VKTS_PKG_Scenegraph/src/scenegraph/load/fn_gltf_load.cpp:274-287 | sub-mesh k of two different meshes of one node gets the same name, the name later used to fetch it back |
| GltfLoad.TopologyOf | VKTS_PKG_Scenegraph/src/scenegraph/load/fn_gltf_load.cpp:106-131 | a mode has a topology iff it is one of 0, 1, 3, 4, 5, 6 |
| GltfLoad.TopologyRoundTrip | VKTS_PKG_Scenegraph/src/scenegraph/load/fn_gltf_load.cpp:106-131 | the mode-to-topology mapping is a bijection between the accepted codes and the six topologies |
| GltfLoad.ProcessSubMesh | VKTS_PKG_Scenegraph/src/scenegraph/load/fn_gltf_load.cpp:34-134 | fails iff there is no position accessor or the mode has no topology; the vertex count is the position count, the index count the indices count or else the vertex count, vertex offset 0, and the topology's code is the mode |
| GltfLoad.ProcessSubMeshes | VKTS_PKG_Scenegraph/src/scenegraph/load/fn_gltf_load.cpp:265-290 | the primitives of a mesh become sub-meshes named name_SubMesh_k in order; any failing primitive fails them all |
| GltfLoad.ProcessMeshes | VKTS_PKG_Scenegraph/src/scenegraph/load/fn_gltf_load.cpp:249-302 | the meshes become meshes named name_Mesh_i in order, each with its sub-meshes; any failure fails the node |
| GltfLoad.LocalTransform | VKTS_PKG_Scenegraph/src/scenegraph/load/fn_gltf_load.cpp:142-177 | with a matrix all three components are decomposed from it; otherwise each present component is taken and the absent ones keep the factory defaults |
| GltfLoad.NearestArmature | VKTS_PKG_Scenegraph/src/scenegraph/load/fn_gltf_load.cpp:209-224 | the nearest ancestor that is an armature, or none iff no ancestor is one |
| GltfLoad.ResolveJointIndex | VKTS_PKG_Scenegraph/src/scenegraph/load/fn_gltf_load.cpp:200-243 | fails with no parent, no armature ancestor, or an armature without a skin entry; otherwise fails iff the name is not in the joint list, else gives its first position |
| GltfLoad.ProcessNode | VKTS_PKG_Scenegraph/src/scenegraph/load/fn_gltf_load.cpp:136-357 | fails when the joint buffer, the joint resolution or a primitive fails; on success the rotation mode is XYZ, the node is an armature iff it has a skin, the bind shape overrides the transform, the joint index is -1 or the resolved one, meshes are the processed meshes, children then skeletons are named by their keys in order (each child's contents: ChildrenFromLinks and ProcessLinksEach) |
| GltfLoad.ProcessLinks | VKTS_PKG_Scenegraph/src/scenegraph/load/fn_gltf_load.cpp:304-354 | the links become as many child nodes, named by their keys in order |
| GltfLoad.ProcessLinksMeaning | VKTS_PKG_Scenegraph/src/scenegraph/load/fn_gltf_load.cpp:304-354 | the links fail iff one of the linked nodes fails to process |
| GltfLoad.ProcessLinksEach | VKTS_PKG_Scenegraph/src/scenegraph/load/fn_gltf_load.cpp:304-354 | entry j of the processed links is link j's node processed under the same ancestors |
| GltfLoad.ChildrenFromLinks | VKTS_PKG_Scenegraph/src/scenegraph/load/fn_gltf_load.cpp:304-354 | the children of a processed node are its child links, then its skeleton links, processed with the node itself prepended as parent |
| GltfLoad.SkinnedParentJointIndex | VKTS_PKG_Scenegraph/src/scenegraph/load/fn_gltf_load.cpp:200-243 | under a skinned parent, a joint-named child's name is in the joint list the document records for that parent, and its joint index is the cast first position of that name |
| GltfLoad.SkinnedParentSkeletonJointIndex | VKTS_PKG_Scenegraph/src/scenegraph/load/fn_gltf_load.cpp:200-243 | the same for a skeleton link, whose node sits after the children |
| GltfLoad.RootJointFails | VKTS_PKG_Scenegraph/src/scenegraph/load/fn_gltf_load.cpp:204-207 | a root node with a joint name fails: it has no parent |
| GltfLoad.Contains | VKTS_PKG_Scenegraph/src/scenegraph/load/fn_gltf_load.cpp:480-499 | the pointer scan finds the node iff some link leads to it |
| GltfLoad.IsRootNode | VKTS_PKG_Scenegraph/src/scenegraph/load/fn_gltf_load.cpp:465-512 | the loop answers true iff no other scene node lists the node among its children or skeletons |
| GltfLoad.RootsBelowSound | VKTS_PKG_Scenegraph/src/scenegraph/load/fn_gltf_load.cpp:465-512 | the root scan keeps only root nodes, in ascending order |
| GltfLoad.RootsBelowComplete | VKTS_PKG_Scenegraph/src/scenegraph/load/fn_gltf_load.cpp:465-512 | the root scan misses no root node |
| GltfLoad.ProcessObjectBelow | VKTS_PKG_Scenegraph/src/scenegraph/load/fn_gltf_load.cpp:359-392 | a root set by the object loop is the import of some scene node |
| GltfLoad.ProcessObjectMeaning | VKTS_PKG_Scenegraph/src/scenegraph/load/fn_gltf_load.cpp:363-389 | the object fails iff a node with its name fails to import; it has no root iff no node has its name; otherwise its root is the import of the last node with its name |
| GltfLoad.ObjectRootNamed | VKTS_PKG_Scenegraph/src/scenegraph/load/fn_gltf_load.cpp:367-387 | the object made for a root node gets a root node named after it |
| GltfLoad.SelectScene | VKTS_PKG_Scenegraph/src/scenegraph/load/fn_gltf_load.cpp:438-450 | the default scene, else the first scene, and none iff there is neither |
| GltfLoad.ObjectsForMeaning | VKTS_PKG_Scenegraph/src/scenegraph/load/fn_gltf_load.cpp:516-544 | one object per root, in order, named after its root node and carrying that object's processed root; the list fails iff one object fails |
| GltfLoad.ObjectsForNext | VKTS_PKG_Scenegraph/src/scenegraph/load/fn_gltf_load.cpp:516-544 | one step of the node scan: a non-root node leaves the object list as it is, a root that processes appends its object |
| GltfLoad.ObjectsForDistinct | VKTS_PKG_Scenegraph/src/scenegraph/load/fn_gltf_load.cpp:516-544 | every root gets a freshly created object, so the loaded objects have pairwise distinct identities, ascending in node order, even when two roots share a name |
| GltfLoad.ObjectsForFails | VKTS_PKG_Scenegraph/src/scenegraph/load/fn_gltf_load.cpp:516-544 | a root whose object fails to process makes the whole object list fail |
| GltfLoad.Load | VKTS_PKG_Scenegraph/src/scenegraph/load/fn_gltf_load.cpp:438-548 | no scene without a glTF scene or when any object fails; otherwise a scene with the glTF scene's name and one object per root node in declaration order |
| GltfLoad.ParentIsOnlyRoot | VKTS_PKG_Scenegraph/src/scenegraph/load/fn_gltf_load.cpp:469-512 | in a scene listing A and its child B, only A is a root |
| ExportVkts.FriendlyName | VKTS_Exporter/Blender/io_scene_vkts/export_vkts.py:330-332 | same length; each space becomes `_` and every other character is kept, so no space is left |
| ExportVkts.FriendlyNodeName | VKTS_Exporter/Blender/io_scene_vkts/export_vkts.py:334-336 | same length; each space and each dot becomes `_` and every other character is kept |
| ExportVkts.FriendlyNameCollides | VKTS_Exporter/Blender/io_scene_vkts/export_vkts.py:330-336 | sanitising is not injective: a space (or, for node names, a dot) and an underscore at the same place give the same name |
| ExportVkts.FriendlyNodeNameIdempotent | VKTS_Exporter/Blender/io_scene_vkts/export_vkts.py:334-336 | sanitising twice equals sanitising once |
| ExportVkts.SuffixesExclusive | VKTS_Exporter/Blender/io_scene_vkts/export_vkts.py:342-353 | no data path ends in two of location, rotation_euler, rotation_quaternion, scale |
| ExportVkts.FriendlyTransformName | VKTS_Exporter/Blender/io_scene_vkts/export_vkts.py:342-353 | TRANSLATE, ROTATE, QUATERNION_ROTATE, SCALE each iff the path ends in location, rotation_euler, rotation_quaternion, scale; UNKNOWN otherwise |
| ExportVkts.FriendlyElementName | VKTS_Exporter/Blender/io_scene_vkts/export_vkts.py:355-406 | vector channels of ordinary nodes map 0,1,2,3 to X,Z,Y,W and of joints to X,Y,Z,W; quaternions to W,X,Z,Y and W,X,Y,Z; other paths to X,Y,Z,W; indices outside 0..3 to UNKNOWN |
| ExportVkts.Find | VKTS_Exporter/Blender/io_scene_vkts/export_vkts.py:413 | str.find: the first occurrence, or none iff the pattern does not occur |
| ExportVkts.ExtractNode | VKTS_Exporter/Blender/io_scene_vkts/export_vkts.py:409-423 | nothing for no input, for no opening `["`, or for an opening `["` with no closing quote after it; a result never contains a quote |
| ExportVkts.ExtractNodeRoundTrip | VKTS_Exporter/Blender/io_scene_vkts/export_vkts.py:409-423 | the bone name of `prefix["bone"]suffix` is recovered when the prefix holds no `["` and the name no quote |
| ExportVkts.UnconvertLocation | VKTS_Exporter/Blender/io_scene_vkts/export_vkts.py:426-430 | the location conversion has an inverse |
| ExportVkts.ConvertLocationTurn | VKTS_Exporter/Blender/io_scene_vkts/export_vkts.py:426-430 | the conversion (x, z, -y) is a quarter turn about X: undone by its inverse, identity after four applications, length preserving |
| ExportVkts.ConvertScaleInvolution | VKTS_Exporter/Blender/io_scene_vkts/export_vkts.py:438-442 | the scale conversion is its own inverse and fixes exactly the vectors with equal Y and Z |
| ExportVkts.ConvertRotationIsLocation | VKTS_Exporter/Blender/io_scene_vkts/export_vkts.py:432-436 | Euler angles are reordered exactly like locations, after the unit change |
| ExportVkts.ConvertLocationNoAdjust | VKTS_Exporter/Blender/io_scene_vkts/export_vkts.py:444-460 | the identity; it stands for convertLocationNoAdjust and convertScaleNoAdjust, whose bodies are the same |
| ExportVkts.ConvertRotationNoAdjust | VKTS_Exporter/Blender/io_scene_vkts/export_vkts.py:450-454 | only the unit change |
| ExportVkts.LastLinked | VKTS_Exporter/Blender/io_scene_vkts/export_vkts.py:719-728 | the last queue position holding a node the current one links to, or none iff there is none |
| ExportVkts.EnqueueNode | VKTS_Exporter/Blender/io_scene_vkts/export_vkts.py:714-734 | a queued node is not inserted again; otherwise it goes just after the last queued node it links to, or at the end |
| ExportVkts.EnqueuePreservesOrder | VKTS_Exporter/Blender/io_scene_vkts/export_vkts.py:714-734 | the queue stays duplicate-free, grows by exactly the new node, and every queued node it links to comes before it |
| ExportVkts.PadBones | VKTS_Exporter/Blender/io_scene_vkts/export_vkts.py:1848-1869 | fails (the KeyError of the bone lookup) iff one of the first min(n, 8) groups is not named after a pose bone; otherwise exactly 8 indices and 8 weights: the looked-up joint indices and weights of the first min(n, 8) groups, then -1.0 and 0.0; numberBones = min(n, 8) |

## Left out

- Floating point: `float`, `double` and `glm` vectors are reals. Rounding is not modelled.
- The matrix decompositions, the quaternion-to-matrix conversion and `math.degrees` are uninterpreted parameters.
- Vulkan itself is not modelled: command recording, descriptor pools, the descriptor-set caches behind `createDescriptorSetsByName` and `getDescriptorSetsByName`, and `updateDescriptorSets`. They become parameters or returned values.
- The scene factory and scene manager (`createNode`, `createMesh`, `createSubMesh`, `createObject`, `createScene`, `addMesh`, `useMesh`, `useSubMesh`, `useObject`) are assumed to succeed. Each registry lookup is assumed to return the item just registered, because that code is not part of this model.
- `prepareJointsUniformBuffer` is a parameter. A success is taken to make the node an armature.
- glTF file loading, JSON decoding, `GltfVisitor` and directory handling are not modelled. The input is the parsed document. A missing entry in the node dictionary counts as a node without a skin.
- glTF documents whose node links form a cycle are not modelled; the source would recurse without end on them.
- Vertex and index buffers are not modelled. Normals, tangents, texture coordinates, joints and weights are unprocessed TODOs in the source. The VERTEX flag is a local variable that is never stored.
- Animations are not modelled; the importer leaves them as a TODO.
- The partition loop uses `size_t` and a 32-bit step. Wrap-around of `i += step` near the top of the range is not modelled.
- Null entries in the scene's lists are folded into the clone operation returning nothing, which takes the same branch of the copy constructor. Outside cloning the lists hold no null entry.
- Scene.RemoveObject: the container's `remove` (Scene.cpp:160) is not part of this model; it is assumed to drop the first equal entry, shift the rest down, and report whether one was found. Equality of shared pointers is modelled by the object's `id`: callers that build objects by hand must give distinct objects distinct ids, as the loader does with the root node index.
- Scene.RemoveCamera: the same assumption about `remove` (Scene.cpp:194).
- Scene.RemoveLight: the same assumption about `remove` (Scene.cpp:228).
- BSDFMaterial.RemoveTextureObject: the same assumption about `remove` (BSDFMaterial.cpp:104).
- GltfLoad.ResolveJointIndex: the container's `index` (fn_gltf_load.cpp:235) is not part of this model; it is assumed to give the position of the first equal entry, and the size when the entry is absent, which the source tests for.
- Scene.AddObject: `addObject`, `addCamera` and `addLight` append a null pointer unchecked; the model's lists cannot hold one.
- Scene.FindObject: the source dereferences every entry it scans (Scene.cpp:167), so a null object would crash the lookup; not modelled.
- Scene.FindCamera: likewise for a null camera (Scene.cpp:201); not modelled.
- Scene.FindLight: likewise for a null light (Scene.cpp:235); not modelled.
- Scene.UpdateTransformRecursive: a null object in the partition would be dereferenced (Scene.cpp:317); not modelled.
- Scene.Destroy: a null object would be dereferenced (Scene.cpp:418); not modelled.
- The `Object`, `Mesh` and `Node` traversals other than the descriptor-set visitor are not modelled. This includes their own `visitRecursive` and `updateTransformRecursive`, and the `UpdateParameter` and `Draw` visitors. These files are not part of this model.
- Visitor chaining inside the node and material hooks is not modelled. The descriptor-set visitor is modelled alone.
- The `Material` base class is reduced to its write array. Its `updateDescriptorImageInfo` is modelled as recording one combined image-sampler write at the first sampler binding plus the slot. A slot never recorded reads as an invalid write.
- The fixed-size staging arrays `finalWriteDescriptorSets` and `VKTS_BINDING_UNIFORM_MATERIAL_TOTAL_BINDING_COUNT` bound the batch size in the source. The model assumes the template fits.
- The binding constants (TRANSFORM, BONE_TRANSFORM, the BSDF forward and deferred first samplers) are parameters, because their values are not part of this model.
- In the exporter, everything that touches `bpy`, `bmesh` or files is not modelled, and neither is `createOpenNodeList`. `friendlyImageName` depends on path handling and is also not modelled.
- UpdateDescriptorSets.UpdateMaterial: the material's write array is modelled as exactly the entries the inner loop reads, which are the first `VKTS_BINDING_UNIFORM_PHONG_BINDING_COUNT` ones.
- ProcessNode: the failure cases are stated as implications, and a child's failure is stated through `ProcessLinks`. There is no single if-and-only-if for the whole node. Each child's contents are stated through the separate lemmas ChildrenFromLinks and ProcessLinksEach, not in ProcessNode's own contract.
- GltfLoad.ProcessMeshes: sub-mesh names repeat across the meshes of one node (SubMeshNamesCollide), yet each sub-mesh is fetched back by name with `useSubMesh` (fn_gltf_load.cpp:287). The model takes the sub-mesh just built, which is what the registry returns only if it resolves a repeated name to the newest entry. The registry is not part of this model.
- BSDFMaterial.BindDrawIndexedRecursive: the commands an overwrite itself records are not modelled. Only its answer is. The null check on the command buffer is the corrected behaviour (see Findings); BindDrawIndexedRecursiveAsWritten is the source's.

## Findings

| source | as written | input that shows it | evidently intended | confidence | as-written member | corrected member |
|---|---|---|---|---|---|---|
| VKTS_Scenegraph/src/scenegraph/scene/BSDFMaterial.cpp:250-253 | `destroy` calls `destroy()` on every texture entry. But `addTextureObject` (lines 91-100) checks for null and appends a null texture anyway. | A material after `addTextureObject(nullptr)`: its only entry is null, and destroy dereferences it. | Skip null entries, as `addTextureObject` already does. | medium; not executed | BSDFMaterial.DestroyAsWritten (counterexample BSDFMaterial.NullTextureBreaksDestroy) | BSDFMaterial.Destroy (agreement BSDFMaterial.DestroyAgreesWithoutNull) |
| VKTS_Scenegraph/src/scenegraph/scene/BSDFMaterial.cpp:213-217 | `bindDrawIndexedRecursive` checks the pipeline for null but not the command buffer, and then calls `cmdBuffer->getCommandBuffer()`. `bindDescriptorSets` (lines 184-187) does check it. | A null command buffer, a live pipeline and no render overwrite. | Return without binding when the command buffer is null, as `bindDescriptorSets` does. | medium; not executed | BSDFMaterial.BindDrawIndexedRecursiveAsWritten (counterexample BSDFMaterial.NullBufferBreaksBind) | BSDFMaterial.BindDrawIndexedRecursive (agreement BSDFMaterial.BindAgreesWithoutCrash) |

=== FILE: bsdf_material.dfy ===
/** The BSDF material: its texture list and per-slot image writes, the merge of a write
    template with its texture writes into the per-node descriptor set, binding, cloning
    and destruction. */
module BSDFMaterial {
  import opened Wrappers
  import opened Lists
  import opened Descriptors
  import SceneGraph

  type Texture = SceneGraph.Texture

  /** Vertex attributes a material expects. */
  datatype VertexAttribute = Vertex | Normal | Tangents | Texcoord | BoneIndices | BoneWeights

  datatype Shader = Shader(id: nat)

  /** The first sampler binding of BSDF textures in forward and in deferred rendering. */
  datatype SamplerBindings = SamplerBindings(forwardFirst: nat, deferredFirst: nat)

  /** `slotWrites[k]` is the image write recorded for texture slot k (the base class's
      writeDescriptorSets array); `textures` may hold null entries. */
  datatype BsdfMaterial = BsdfMaterial(
    forwardRendering: bool,
    name: string,
    fragmentShader: Option<Shader>,
    attributes: set<VertexAttribute>,
    textures: seq<Option<Texture>>,
    slotWrites: map<nat, Write>)

  /** The constructor. */
  function New(forwardRendering: bool): (m: BsdfMaterial)
    ensures m.forwardRendering == forwardRendering
    ensures m.attributes == {Vertex, Normal}
    ensures m.textures == [] && m.slotWrites == map[]
    ensures m.fragmentShader.None? && m.name == ""
  {
    BsdfMaterial(forwardRendering, "", None, {Vertex, Normal}, [], map[])
  }

  /** The sampler binding the first texture of this material is bound at. */
  function FirstSampler(m: BsdfMaterial, sb: SamplerBindings): nat
  {
    if m.forwardRendering then sb.forwardFirst else sb.deferredFirst
  }

  /** The image write the base class records for texture slot `slot` (a combined image
      sampler at binding first + slot). */
  function TextureWrite(slot: nat, first: nat, t: Texture): (w: Write)
    ensures w.valid && w.binding == first + slot && w.count == 1
  {
    Write(true, first + slot, 1, t.id, 0)
  }

  /** addTextureObject: always appends, even a null texture; a live texture also records its
      image write at slot = previous texture count. */
  function AddTextureObject(m: BsdfMaterial, t: Option<Texture>, sb: SamplerBindings): (r: BsdfMaterial)
    ensures r.textures == m.textures + [t]
    ensures t.None? ==> r.slotWrites == m.slotWrites
    ensures t.Some? ==> (|m.textures| in r.slotWrites
              && r.slotWrites[|m.textures|] == TextureWrite(|m.textures|, FirstSampler(m, sb), t.value))
    ensures forall k :: k in m.slotWrites && k != |m.textures| ==> k in r.slotWrites && r.slotWrites[k] == m.slotWrites[k]
    ensures r.forwardRendering == m.forwardRendering && r.name == m.name
    ensures r.fragmentShader == m.fragmentShader && r.attributes == m.attributes
  {
    var writes := if t.Some? then m.slotWrites[|m.textures| := TextureWrite(|m.textures|, FirstSampler(m, sb), t.value)]
                  else m.slotWrites;
    m.(textures := m.textures + [t], slotWrites := writes)
  }

  datatype RemovedTexture = RemovedTexture(found: bool, material: BsdfMaterial)

  /** removeTextureObject: drops the first occurrence; the slot writes stay as they are. */
  function RemoveTextureObject(m: BsdfMaterial, t: Option<Texture>): (r: RemovedTexture)
    ensures r.found <==> t in m.textures
    ensures r.found ==> |r.material.textures| == |m.textures| - 1
    // The first occurrence leaves; the other entries keep their order.
    ensures r.found ==> exists i :: 0 <= i < |m.textures| && m.textures[i] == t && t !in m.textures[..i]
                                    && r.material.textures == m.textures[..i] + m.textures[i + 1..]
    ensures !r.found ==> r.material == m
    ensures r.material.slotWrites == m.slotWrites
    ensures r.material.forwardRendering == m.forwardRendering && r.material.name == m.name
    ensures r.material.fragmentShader == m.fragmentShader && r.material.attributes == m.attributes
  {
    var rm := RemoveFirst(m.textures, t);
    RemovedTexture(rm.found, m.(textures := rm.rest))
  }

  /** Removing a texture just added (and not present before) gives back the texture list;
      the slot write recorded by the add stays behind. */
  lemma AddThenRemoveTexture(m: BsdfMaterial, t: Option<Texture>, sb: SamplerBindings)
    requires t !in m.textures
    ensures RemoveTextureObject(AddTextureObject(m, t, sb), t).found
    ensures RemoveTextureObject(AddTextureObject(m, t, sb), t).material
            == AddTextureObject(m, t, sb).(textures := m.textures)
  {
    AddThenRemove(m.textures, t);
  }

  /** Re-adding a list of textures in order, as the copy constructor does. */
  function AddAll(m: BsdfMaterial, ts: seq<Option<Texture>>, sb: SamplerBindings): (r: BsdfMaterial)
    ensures r.textures == m.textures + ts
    ensures r.forwardRendering == m.forwardRendering && r.name == m.name
    ensures r.fragmentShader == m.fragmentShader && r.attributes == m.attributes
    ensures forall k :: k in m.slotWrites && k < |m.textures| ==> k in r.slotWrites && r.slotWrites[k] == m.slotWrites[k]
    ensures forall i :: 0 <= i < |ts| && ts[i].Some? ==>
              |m.textures| + i in r.slotWrites
              && r.slotWrites[|m.textures| + i] == TextureWrite(|m.textures| + i, FirstSampler(m, sb), ts[i].value)
    decreases |ts|
  {
    if |ts| == 0 then
      assert m.textures + ts == m.textures;
      m
    else
      var m1 := AddTextureObject(m, ts[0], sb);
      var r := AddAll(m1, ts[1..], sb);
      assert m1.textures + ts[1..] == m.textures + ts;
      assert forall i :: 1 <= i < |ts| ==> ts[i] == ts[1..][i - 1];
      r
  }

  /** The copy constructor: name + "_clone", the same flag, shader and attributes, and the
      textures re-added one by one in order. */
  function Copy(other: BsdfMaterial, sb: SamplerBindings): (r: BsdfMaterial)
    ensures r.name == other.name + "_clone"
    ensures r.forwardRendering == other.forwardRendering
    ensures r.fragmentShader == other.fragmentShader && r.attributes == other.attributes
    ensures r.textures == other.textures
    ensures forall i :: 0 <= i < |other.textures| && other.textures[i].Some? ==>
              i in r.slotWrites && r.slotWrites[i] == TextureWrite(i, FirstSampler(other, sb), other.textures[i].value)
  {
    AddAll(other.(name := other.name + "_clone", textures := []), other.textures, sb)
  }

  /** clone: null when the copy's texture count differs from the original's. */
  function Clone(other: BsdfMaterial, sb: SamplerBindings): (r: Option<BsdfMaterial>)
    ensures r.Some? ==> |r.value.textures| == |other.textures|
  {
    var c := Copy(other, sb);
    if |c.textures| != |other.textures| then None else Some(c)
  }

  /** Since addTextureObject appends unconditionally, the count check in clone never fires. */
  lemma CloneNeverFails(other: BsdfMaterial, sb: SamplerBindings)
    ensures Clone(other, sb).Some?
    ensures Clone(other, sb).value.textures == other.textures
    ensures Clone(other, sb).value.name == other.name + "_clone"
  {
  }

  // ---------------------------------------------------------------------------
  // Descriptor-set merge

  /** A template entry is kept when it is a valid write with at least one descriptor. */
  predicate Kept(w: Write)
  {
    w.valid && w.count > 0
  }

  /** The image write of texture slot k; a slot never recorded reads as an invalid write. */
  function SlotWrite(m: BsdfMaterial, k: nat): Write
  {
    if k in m.slotWrites then m.slotWrites[k] else NoWrite
  }

  /** The material as the descriptor-set visitor sees it: one base-class write array, here
      its first n slots read through SlotWrite. The visitor's own `Material.writes` and the
      `slotWrites` map of this module are this one array in two shapes. */
  function AsMaterial(m: BsdfMaterial, n: nat): (r: SceneGraph.Material)
    ensures r.kind == SceneGraph.BSDF && r.name == m.name && |r.writes| == n
    ensures forall k :: 0 <= k < n ==> r.writes[k] == SlotWrite(m, k)
  {
    SceneGraph.Material(SceneGraph.BSDF, m.name, seq(n, k requires 0 <= k < n => SlotWrite(m, k)))
  }

  /** A live texture added to the material shows up in the visitor's view at its slot,
      and the earlier slots are unchanged. */
  lemma AddedTextureVisible(m: BsdfMaterial, t: Texture, sb: SamplerBindings, n: nat)
    requires |m.textures| < n
    ensures AsMaterial(AddTextureObject(m, Some(t), sb), n).writes[|m.textures|]
            == TextureWrite(|m.textures|, FirstSampler(m, sb), t)
    ensures forall k :: 0 <= k < |m.textures| ==>
              AsMaterial(AddTextureObject(m, Some(t), sb), n).writes[k] == AsMaterial(m, n).writes[k]
  {
  }

  /** How many entries of template[a..b] are not kept (and so consume a texture). */
  function Replaced(template: seq<Write>, a: nat, b: nat): nat
    requires a <= b <= |template|
    decreases b - a
  {
    if a == b then 0 else (if Kept(template[a]) then 0 else 1) + Replaced(template, a + 1, b)
  }

  lemma ReplacedSnoc(template: seq<Write>, a: nat, b: nat)
    requires a <= b < |template|
    ensures Replaced(template, a, b + 1) == Replaced(template, a, b) + (if Kept(template[b]) then 0 else 1)
    decreases b - a
  {
    if a < b {
      ReplacedSnoc(template, a + 1, b);
    }
  }

  datatype Merged = Merged(writes: seq<Write>, used: nat)

  /** The merge from template entry i on, `used` textures consumed so far. */
  function MergeFrom(template: seq<Write>, i: nat, used: nat, m: BsdfMaterial, target: nat): (r: Merged)
    requires i <= |template| && used <= |m.textures|
    ensures used <= r.used <= |m.textures|
    ensures |r.writes| <= |template| - i
    ensures forall j :: 0 <= j < |r.writes| ==> r.writes[j].dstSet == target
    decreases |template| - i
  {
    if i == |template| then Merged([], used)
    else if Kept(template[i]) then
      var rest := MergeFrom(template, i + 1, used, m, target);
      Merged([Retarget(template[i], target)] + rest.writes, rest.used)
    else if used == |m.textures| then Merged([], used)
    else
      var rest := MergeFrom(template, i + 1, used + 1, m, target);
      Merged([Retarget(SlotWrite(m, used), target)] + rest.writes, rest.used)
  }

  /** What the merge means: output position j stands for template entry i + j; kept entries
      are retargeted, the others replaced by the texture writes in slot order. */
  lemma {:induction false} MergeFromMeaning(template: seq<Write>, i: nat, used: nat, m: BsdfMaterial, target: nat)
    requires i <= |template| && used <= |m.textures|
    ensures forall j :: 0 <= j < |MergeFrom(template, i, used, m, target).writes| ==>
              MergeFrom(template, i, used, m, target).writes[j]
              == (if Kept(template[i + j]) then Retarget(template[i + j], target)
                  else Retarget(SlotWrite(m, used + Replaced(template, i, i + j)), target))
    decreases |template| - i
  {
    if i < |template| {
      var r := MergeFrom(template, i, used, m, target);
      var next := if Kept(template[i]) then used else used + 1;
      if Kept(template[i]) || used < |m.textures| {
        MergeFromMeaning(template, i + 1, next, m, target);
        var rest := MergeFrom(template, i + 1, next, m, target);
        var w := if Kept(template[i]) then Retarget(template[i], target) else Retarget(SlotWrite(m, used), target);
        assert r.writes == [w] + rest.writes;
        assert Replaced(template, i, i) == 0;
        forall j | 0 <= j < |r.writes|
          ensures r.writes[j] == (if Kept(template[i + j]) then Retarget(template[i + j], target)
                                  else Retarget(SlotWrite(m, used + Replaced(template, i, i + j)), target))
        {
          if j > 0 {
            var k := j - 1;
            assert r.writes[j] == rest.writes[k];
            assert Replaced(template, i, i + j) == (next - used) + Replaced(template, i + 1, i + j);
          }
        }
      }
    }
  }

  /** The textures the merge consumes are exactly the replaced entries it wrote, and the
      output is cut short only at a replaceable entry met after the textures ran out. */
  lemma {:induction false} MergeFromUsage(template: seq<Write>, i: nat, used: nat, m: BsdfMaterial, target: nat)
    requires i <= |template| && used <= |m.textures|
    ensures var r := MergeFrom(template, i, used, m, target);
      && r.used == used + Replaced(template, i, i + |r.writes|)
      && (|r.writes| < |template| - i ==> !Kept(template[i + |r.writes|]) && r.used == |m.textures|)
    decreases |template| - i
  {
    if i < |template| {
      var next := if Kept(template[i]) then used else used + 1;
      if Kept(template[i]) || used < |m.textures| {
        MergeFromUsage(template, i + 1, next, m, target);
      }
    }
  }

  /** One step of the merge loop: `batch` followed by the merge from entry i is the whole
      merge, and stays so after entry i is handled (or the loop stops there). */
  lemma MergeLoopStep(template: seq<Write>, i: nat, used: nat, m: BsdfMaterial, target: nat, batch: seq<Write>)
    requires i < |template| && used <= |m.textures|
    requires batch + MergeFrom(template, i, used, m, target).writes == MergeFrom(template, 0, 0, m, target).writes
    ensures Kept(template[i]) ==>
              (batch + [Retarget(template[i], target)]) + MergeFrom(template, i + 1, used, m, target).writes
              == MergeFrom(template, 0, 0, m, target).writes
    ensures !Kept(template[i]) && used == |m.textures| ==> batch == MergeFrom(template, 0, 0, m, target).writes
    ensures !Kept(template[i]) && used < |m.textures| ==>
              (batch + [Retarget(SlotWrite(m, used), target)]) + MergeFrom(template, i + 1, used + 1, m, target).writes
              == MergeFrom(template, 0, 0, m, target).writes
  {
    var rest := MergeFrom(template, i, used, m, target).writes;
    if Kept(template[i]) {
      var w := Retarget(template[i], target);
      assert rest == [w] + MergeFrom(template, i + 1, used, m, target).writes;
      assert (batch + [w]) + MergeFrom(template, i + 1, used, m, target).writes == batch + rest;
    } else if used < |m.textures| {
      var w := Retarget(SlotWrite(m, used), target);
      assert rest == [w] + MergeFrom(template, i + 1, used + 1, m, target).writes;
      assert (batch + [w]) + MergeFrom(template, i + 1, used + 1, m, target).writes == batch + rest;
    } else {
      assert rest == [];
      assert batch + rest == batch;
    }
  }

  function Retarget(w: Write, target: nat): (r: Write)
    ensures r.dstSet == target && r.valid == w.valid && r.binding == w.binding && r.count == w.count
  {
    w.(dstSet := target)
  }

  /** updateDescriptorSetsRecursive, with the source's loop and its early break. `handle` is
      what createDescriptorSetsByName gives for the node's name. */
  method UpdateDescriptorSetsRecursive(m: BsdfMaterial, template: seq<Write>, handle: Option<nat>)
    returns (update: Option<Update>)
    ensures handle.None? ==> update.None?
    ensures handle.Some? ==> update == Some(Update(handle.value, MergeFrom(template, 0, 0, m, handle.value).writes))
    ensures update.Some? ==> |update.value.writes| <= |template|
    ensures update.Some? ==> forall j :: 0 <= j < |update.value.writes| ==> update.value.writes[j].dstSet == update.value.target
  {
    if handle.None? {
      return None;
    }
    var target := handle.value;
    var batch: seq<Write> := [];
    var current := 0;
    var i := 0;
    while i < |template|
      invariant i <= |template| && current <= |m.textures|
      invariant batch + MergeFrom(template, i, current, m, target).writes == MergeFrom(template, 0, 0, m, target).writes
    {
      MergeLoopStep(template, i, current, m, target, batch);
      if Kept(template[i]) {
        batch := batch + [Retarget(template[i], target)];
      } else {
        if current == |m.textures| {
          break;
        }
        batch := batch + [Retarget(SlotWrite(m, current), target)];
        current := current + 1;
      }
      i := i + 1;
    }
    if i == |template| {
      assert batch + MergeFrom(template, i, current, m, target).writes == batch;
    }
    update := Some(Update(target, batch));
  }

  /** A template of kept entries only passes through unchanged apart from the target set,
      and no texture is consumed. */
  lemma {:induction false} AllKeptPassThrough(template: seq<Write>, i: nat, used: nat, m: BsdfMaterial, target: nat)
    requires i <= |template| && used <= |m.textures|
    requires forall j :: i <= j < |template| ==> Kept(template[j])
    ensures MergeFrom(template, i, used, m, target).writes ==
            seq(|template| - i, j requires 0 <= j < |template| - i => Retarget(template[i + j], target))
    ensures MergeFrom(template, i, used, m, target).used == used
    decreases |template| - i
  {
    if i < |template| {
      AllKeptPassThrough(template, i + 1, used, m, target);
    }
  }

  // ---------------------------------------------------------------------------
  // Binding

  datatype CommandBuffer = CommandBuffer(id: nat)
  datatype Pipeline = Pipeline(id: nat, layout: nat)

  /** Which command buffer of the set a command goes into: getCommandBuffer() without an
      index, or getCommandBuffer(bufferIndex). */
  datatype BufferRef = DefaultBuffer | BufferAt(index: nat)

  datatype Command =
    | BindPipeline(buffer: BufferRef, pipeline: nat)
    | BindDescriptorSet(buffer: BufferRef, layout: nat, descriptorSet: nat)

  /** bindDescriptorSets: nothing without a command buffer or without the node's set
      (`lookup` stands for getDescriptorSetsByName); the set goes into buffer `bufferIndex`. */
  function BindDescriptorSets(m: BsdfMaterial, nodeName: string, cmd: Option<CommandBuffer>, layout: nat,
                              bufferIndex: nat, lookup: (BsdfMaterial, string) -> Option<nat>): (r: seq<Command>)
    ensures (cmd.None? || lookup(m, nodeName).None?) <==> r == []
    ensures r != [] ==> r == [BindDescriptorSet(BufferAt(bufferIndex), layout, lookup(m, nodeName).value)]
  {
    if cmd.None? then []
    else match lookup(m, nodeName)
      case None => []
      case Some(handle) => [BindDescriptorSet(BufferAt(bufferIndex), layout, handle)]
  }

  /** Whether some render overwrite of the chain answers false. `overwrites[k]` is the
      answer of the k-th overwrite. */
  predicate Aborted(overwrites: seq<bool>)
  {
    exists k :: 0 <= k < |overwrites| && !overwrites[k]
  }

  /** bindDrawIndexedRecursive as written: once no overwrite aborts and the pipeline is
      live, the pipeline is bound through the command buffer without a null check, so a
      null command buffer is a crash (None). */
  function BindDrawIndexedRecursiveAsWritten(m: BsdfMaterial, nodeName: string, cmd: Option<CommandBuffer>,
                                             pipeline: Option<Pipeline>, overwrites: seq<bool>, bufferIndex: nat,
                                             lookup: (BsdfMaterial, string) -> Option<nat>): (r: Option<seq<Command>>)
    ensures r.None? <==> !Aborted(overwrites) && pipeline.Some? && cmd.None?
    ensures Aborted(overwrites) || pipeline.None? ==> r == Some([])
    ensures !Aborted(overwrites) && pipeline.Some? && cmd.Some? ==>
              r.Some? && |r.value| >= 1 && r.value[0] == BindPipeline(DefaultBuffer, pipeline.value.id)
              && r.value[1..] == BindDescriptorSets(m, nodeName, cmd, pipeline.value.layout, bufferIndex, lookup)
  {
    if Aborted(overwrites) then Some([])
    else if pipeline.None? then Some([])
    else if cmd.None? then None
    else Some([BindPipeline(DefaultBuffer, pipeline.value.id)]
              + BindDescriptorSets(m, nodeName, cmd, pipeline.value.layout, bufferIndex, lookup))
  }

  /** A null command buffer with a live pipeline and no overwrites reaches the dereference. */
  lemma NullBufferBreaksBind(m: BsdfMaterial, p: Pipeline)
    ensures BindDrawIndexedRecursiveAsWritten(m, "", None, Some(p), [], 0, (_, _) => None).None?
  {
  }

  /** bindDrawIndexedRecursive with the null check bindDescriptorSets already makes: an
      aborting overwrite, a null pipeline or a null command buffer binds nothing; otherwise
      the pipeline goes into the default buffer, then the node's set into buffer
      `bufferIndex`. */
  function BindDrawIndexedRecursive(m: BsdfMaterial, nodeName: string, cmd: Option<CommandBuffer>,
                                    pipeline: Option<Pipeline>, overwrites: seq<bool>, bufferIndex: nat,
                                    lookup: (BsdfMaterial, string) -> Option<nat>): (r: seq<Command>)
    ensures Aborted(overwrites) || pipeline.None? || cmd.None? ==> r == []
    ensures !Aborted(overwrites) && pipeline.Some? && cmd.Some? ==>
              |r| >= 1 && r[0] == BindPipeline(DefaultBuffer, pipeline.value.id)
              && r[1..] == BindDescriptorSets(m, nodeName, cmd, pipeline.value.layout, bufferIndex, lookup)
  {
    if Aborted(overwrites) || pipeline.None? || cmd.None? then []
    else [BindPipeline(DefaultBuffer, pipeline.value.id)]
         + BindDescriptorSets(m, nodeName, cmd, pipeline.value.layout, bufferIndex, lookup)
  }

  /** Wherever the source does not crash, the guarded version binds exactly what it binds. */
  lemma BindAgreesWithoutCrash(m: BsdfMaterial, nodeName: string, cmd: Option<CommandBuffer>,
                               pipeline: Option<Pipeline>, overwrites: seq<bool>, bufferIndex: nat,
                               lookup: (BsdfMaterial, string) -> Option<nat>)
    ensures BindDrawIndexedRecursiveAsWritten(m, nodeName, cmd, pipeline, overwrites, bufferIndex, lookup).Some? ==>
              BindDrawIndexedRecursiveAsWritten(m, nodeName, cmd, pipeline, overwrites, bufferIndex, lookup)
              == Some(BindDrawIndexedRecursive(m, nodeName, cmd, pipeline, overwrites, bufferIndex, lookup))
  {
  }

  // ---------------------------------------------------------------------------
  // Destruction

  datatype Teardown = DestroyShader(shader: Shader) | DestroyTexture(texture: Texture) | DestroyBase

  /** destroy as written: every texture entry is dereferenced, so a null one is a crash
      (None). Otherwise: the shader, every texture in order, then the base material. */
  function DestroyAsWritten(m: BsdfMaterial): (r: Option<seq<Teardown>>)
    ensures r.None? <==> None in m.textures
  {
    var ts := DestroyTexturesAsWritten(m.textures);
    if ts.None? then None
    else Some((if m.fragmentShader.Some? then [DestroyShader(m.fragmentShader.value)] else []) + ts.value + [DestroyBase])
  }

  function DestroyTexturesAsWritten(ts: seq<Option<Texture>>): (r: Option<seq<Teardown>>)
    ensures r.None? <==> None in ts
    ensures r.Some? ==> |r.value| == |ts| && forall i :: 0 <= i < |ts| ==> r.value[i] == DestroyTexture(ts[i].value)
  {
    if |ts| == 0 then Some([])
    else if ts[0].None? then None
    else
      var rest := DestroyTexturesAsWritten(ts[1..]);
      assert ts == [ts[0]] + ts[1..];
      if rest.None? then None else Some([DestroyTexture(ts[0].value)] + rest.value)
  }

  /** A material holding one null texture, as addTextureObject(null) produces. */
  lemma NullTextureBreaksDestroy()
    ensures DestroyAsWritten(AddTextureObject(New(true), None, SamplerBindings(0, 0))).None?
  {
    var m := AddTextureObject(New(true), None, SamplerBindings(0, 0));
    assert m.textures[0] == None;
  }

  /** The teardown of the live entries of a texture list, in order. */
  function DestroyLive(ts: seq<Option<Texture>>): (r: seq<Teardown>)
    ensures |r| <= |ts|
    ensures forall x :: x in r ==> x.DestroyTexture?
    ensures forall t :: DestroyTexture(t) in r <==> Some(t) in ts
  {
    if |ts| == 0 then []
    else
      var rest := DestroyLive(ts[1..]);
      assert ts == [ts[0]] + ts[1..];
      (if ts[0].Some? then [DestroyTexture(ts[0].value)] else []) + rest
  }

  /** destroy with null entries skipped: the shader if present, each live texture in order,
      then the base material. */
  function Destroy(m: BsdfMaterial): (r: seq<Teardown>)
    ensures |r| >= 1 && r[|r| - 1] == DestroyBase
    ensures m.fragmentShader.Some? ==> r[0] == DestroyShader(m.fragmentShader.value)
    ensures forall t :: DestroyTexture(t) in r <==> Some(t) in m.textures
  {
    (if m.fragmentShader.Some? then [DestroyShader(m.fragmentShader.value)] else [])
      + DestroyLive(m.textures) + [DestroyBase]
  }

  /** Without null entries the corrected destroy does exactly what the source does. */
  lemma DestroyAgreesWithoutNull(m: BsdfMaterial)
    requires None !in m.textures
    ensures DestroyAsWritten(m) == Some(Destroy(m))
  {
    LiveOfNonNull(m.textures);
  }

  lemma {:induction false} LiveOfNonNull(ts: seq<Option<Texture>>)
    requires None !in ts
    ensures DestroyTexturesAsWritten(ts) == Some(DestroyLive(ts))
  {
    if |ts| > 0 {
      assert ts[0] in ts;
      assert forall x :: x in ts[1..] ==> x in ts;
      LiveOfNonNull(ts[1..]);
    }
  }
}

=== FILE: copy_constraint.dfy ===
/** Copy-location / copy-rotation / copy-scale constraints: one of a node's final transform
    vectors is overwritten, or offset, axis by axis from the decomposed world transform of
    a target node. */
module CopyConstraint {
  import opened Wrappers
  import opened Vectors

  /** The three constraint kinds; there are no others. */
  datatype CopyConstraintType = CopyLocation | CopyRotation | CopyScale

  /** A shared, non-owning reference to the target node. */
  datatype NodeRef = NodeRef(id: nat)

  /** The post-constraint ("final") translate, rotate and scale of the constrained node. */
  datatype FinalTransform = FinalTransform(translate: Vec3, rotate: Vec3, scale: Vec3)

  /** The constraint's state. `kind` has no setter: it is fixed when the constraint is built. */
  datatype Constraint = Constraint(
    kind: CopyConstraintType,
    target: Option<NodeRef>,
    use: BVec3,
    invert: BVec3,
    offset: bool,
    influence: real)

  /** The only constructor takes the kind; everything else starts cleared. */
  function New(kind: CopyConstraintType): (c: Constraint)
    ensures c.kind == kind
    ensures c.target.None?
    ensures forall i :: 0 <= i < 3 ==> !c.use[i] && !c.invert[i]
    ensures !c.offset && c.influence == 0.0
  {
    Constraint(kind, None, NoAxes, NoAxes, false, 0.0)
  }

  /** The copy constructor: every field is duplicated and the target reference is shared. */
  function Copy(other: Constraint): (c: Constraint)
    ensures c.kind == other.kind && c.target == other.target
    ensures c.use == other.use && c.invert == other.invert
    ensures c.offset == other.offset && c.influence == other.influence
  {
    Constraint(other.kind, other.target, other.use, other.invert, other.offset, other.influence)
  }

  /** `clone` goes through the copy constructor, so the clone refers to the same target node. */
  function Clone(c: Constraint): (r: Constraint)
    ensures r == c
    ensures r.target == c.target
  {
    Copy(c)
  }

  function SetTarget(c: Constraint, target: Option<NodeRef>): (r: Constraint)
    ensures r.target == target
    ensures r.kind == c.kind && r.use == c.use && r.invert == c.invert && r.offset == c.offset && r.influence == c.influence
  {
    c.(target := target)
  }

  function SetUse(c: Constraint, use: BVec3): (r: Constraint)
    ensures r.use == use
    ensures r.kind == c.kind && r.target == c.target && r.invert == c.invert && r.offset == c.offset && r.influence == c.influence
  {
    c.(use := use)
  }

  function SetInvert(c: Constraint, invert: BVec3): (r: Constraint)
    ensures r.invert == invert
    ensures r.kind == c.kind && r.target == c.target && r.use == c.use && r.offset == c.offset && r.influence == c.influence
  {
    c.(invert := invert)
  }

  function SetOffset(c: Constraint, offset: bool): (r: Constraint)
    ensures r.offset == offset
    ensures r.kind == c.kind && r.target == c.target && r.use == c.use && r.invert == c.invert && r.influence == c.influence
  {
    c.(offset := offset)
  }

  function SetInfluence(c: Constraint, influence: real): (r: Constraint)
    ensures r.influence == influence
    ensures r.kind == c.kind && r.target == c.target && r.use == c.use && r.invert == c.invert && r.offset == c.offset
  {
    c.(influence := influence)
  }

  /** One call of one of the five setters (assignment and move are deleted in the source,
      so these are the only ways the state changes after construction). */
  datatype SetterCall =
    | CallSetTarget(target: Option<NodeRef>)
    | CallSetUse(use: BVec3)
    | CallSetInvert(invert: BVec3)
    | CallSetOffset(offset: bool)
    | CallSetInfluence(influence: real)

  function Call(c: Constraint, call: SetterCall): Constraint
  {
    match call
    case CallSetTarget(t) => SetTarget(c, t)
    case CallSetUse(u) => SetUse(c, u)
    case CallSetInvert(v) => SetInvert(c, v)
    case CallSetOffset(o) => SetOffset(c, o)
    case CallSetInfluence(f) => SetInfluence(c, f)
  }

  function CallAll(c: Constraint, calls: seq<SetterCall>): Constraint
    decreases |calls|
  {
    if |calls| == 0 then c else CallAll(Call(c, calls[0]), calls[1..])
  }

  /** Whatever setters run after construction, the kind chosen at construction remains. */
  lemma {:induction false} KindFixedForever(kind: CopyConstraintType, calls: seq<SetterCall>)
    ensures CallAll(New(kind), calls).kind == kind
  {
    KindPreserved(New(kind), calls);
  }

  lemma {:induction false} KindPreserved(c: Constraint, calls: seq<SetterCall>)
    ensures CallAll(c, calls).kind == c.kind
    decreases |calls|
  {
    if |calls| > 0 {
      KindPreserved(Call(c, calls[0]), calls[1..]);
    }
  }

  /** The final vector a constraint of this kind reads and writes back. */
  function Component(t: FinalTransform, kind: CopyConstraintType): Vec3
  {
    match kind
    case CopyLocation => t.translate
    case CopyRotation => t.rotate
    case CopyScale => t.scale
  }

  function WithComponent(t: FinalTransform, kind: CopyConstraintType, v: Vec3): (r: FinalTransform)
    ensures Component(r, kind) == v
    ensures forall k :: k != kind ==> Component(r, k) == Component(t, k)
  {
    match kind
    case CopyLocation => t.(translate := v)
    case CopyRotation => t.(rotate := v)
    case CopyScale => t.(scale := v)
  }

  /** The target's world matrix decomposed the way this kind needs it. */
  function TargetVector(kind: CopyConstraintType, d: Decomposer, m: Mat4): Vec3
  {
    match kind
    case CopyLocation => d.translate(m)
    case CopyRotation => d.rotateRzRyRx(m)
    case CopyScale => d.scale(m)
  }

  /** The target's contribution on axis i: scaled by the influence, negated when inverted. */
  function Contribution(c: Constraint, tv: Vec3, i: nat): real
    requires i < 3
  {
    var value := tv[i] * c.influence;
    if c.invert[i] then -value else value
  }

  /** One step of the per-axis loop. */
  function AxisValue(c: Constraint, prior: Vec3, tv: Vec3, i: nat): real
    requires i < 3
  {
    if !c.use[i] then prior[i]
    else if c.offset then prior[i] + Contribution(c, tv, i)
    else Contribution(c, tv, i)
  }

  datatype Applied = Applied(ok: bool, final: FinalTransform)

  /** applyConstraint. `world` gives the current transform matrix of a node reference,
      `d` the decompositions. */
  function Apply(c: Constraint, node: FinalTransform, world: NodeRef -> Mat4, d: Decomposer): (r: Applied)
    // A missing target is reported as failure and nothing is written.
    ensures r.ok <==> c.target.Some?
    ensures c.target.None? ==> r.final == node
    // Influence exactly zero writes nothing.
    ensures c.influence == 0.0 ==> r.final == node
    // Only the vector selected by the kind can change.
    ensures forall k :: k != c.kind ==> Component(r.final, k) == Component(node, k)
    // Unused axes keep their prior value.
    ensures forall i :: 0 <= i < 3 && !c.use[i] ==> Component(r.final, c.kind)[i] == Component(node, c.kind)[i]
    // Used axes: replaced by, or offset by, the (possibly negated) weighted target value.
    ensures c.target.Some? && c.influence != 0.0 ==>
      var tv := TargetVector(c.kind, d, world(c.target.value));
      var p := Component(node, c.kind);
      var q := Component(r.final, c.kind);
      forall i :: 0 <= i < 3 && c.use[i] ==>
        q[i] == (if c.offset then p[i] else 0.0) + (if c.invert[i] then -(tv[i] * c.influence) else tv[i] * c.influence)
  {
    if c.target.None? then Applied(false, node)
    else if c.influence == 0.0 then Applied(true, node)
    else
      var tv := TargetVector(c.kind, d, world(c.target.value));
      var p := Component(node, c.kind);
      var q: Vec3 := seq(3, i requires 0 <= i < 3 => AxisValue(c, p, tv, i));
      Applied(true, WithComponent(node, c.kind, q))
  }

  /** A freshly constructed constraint has no target, so applying it fails and changes nothing. */
  lemma FreshConstraintIsInert(kind: CopyConstraintType, node: FinalTransform, world: NodeRef -> Mat4, d: Decomposer)
    ensures Apply(New(kind), node, world, d) == Applied(false, node)
  {
  }

  /** Copy-location using every axis, no inversion, replace mode and influence 1 puts the
      target's decomposed translation into the final translate. */
  lemma FullCopyLocation(c: Constraint, node: FinalTransform, world: NodeRef -> Mat4, d: Decomposer)
    requires c.kind == CopyLocation && c.target.Some?
    requires c.use == [true, true, true] && c.invert == NoAxes && !c.offset && c.influence == 1.0
    ensures Apply(c, node, world, d).final.translate == d.translate(world(c.target.value))
    ensures Apply(c, node, world, d).final.rotate == node.rotate
    ensures Apply(c, node, world, d).final.scale == node.scale
  {
    var r := Apply(c, node, world, d);
    var t := d.translate(world(c.target.value));
    assert forall i :: 0 <= i < 3 ==> r.final.translate[i] == t[i];
  }
}

=== FILE: descriptors.dfy ===
/** Descriptor-set write records (VkWriteDescriptorSet) reduced to the fields the
    scene graph inspects or rewrites. */
module Descriptors {

  /** `valid` stands for sType == VK_STRUCTURE_TYPE_WRITE_DESCRIPTOR_SET; `payload` names
      the buffer or image the write points at; `dstSet` is the descriptor set handle. */
  datatype Write = Write(valid: bool, binding: nat, count: nat, payload: nat, dstSet: nat)

  /** A zero-initialised record: not a valid write. */
  const NoWrite := Write(false, 0, 0, 0, 0)

  /** One batched vkUpdateDescriptorSets call into the set `target`. */
  datatype Update = Update(target: nat, writes: seq<Write>)
}

=== FILE: export_vkts.dfy ===
/** The exporter's pure helpers: name sanitising, animation-channel naming, data-path
    parsing, the Blender-to-engine axis conversion, the node-queue insertion of the
    shader-graph walk, and the eight-slot bone padding of skinned vertices. */
module ExportVkts {
  import opened Wrappers
  import opened Vectors

  // ---------------------------------------------------------------------------
  // Names

  /** str.replace for a single character. */
  function Replace(s: string, from: char, to: char): (r: string)
    ensures |r| == |s|
    ensures forall i :: 0 <= i < |s| ==> r[i] == (if s[i] == from then to else s[i])
  {
    if |s| == 0 then [] else [if s[0] == from then to else s[0]] + Replace(s[1..], from, to)
  }

  /** friendlyName: spaces become underscores. */
  function FriendlyName(name: string): (r: string)
    ensures |r| == |name| && ' ' !in r
    ensures forall i :: 0 <= i < |name| ==> r[i] == (if name[i] == ' ' then '_' else name[i])
  {
    Replace(name, ' ', '_')
  }

  /** friendlyNodeName: spaces and dots become underscores. */
  function FriendlyNodeName(name: string): (r: string)
    ensures |r| == |name| && ' ' !in r && '.' !in r
    ensures forall i :: 0 <= i < |name| ==> r[i] == (if name[i] == ' ' || name[i] == '.' then '_' else name[i])
  {
    Replace(FriendlyName(name), '.', '_')
  }

  /** Sanitising is not injective: a space and an underscore at the same place give the
      same name, so two Blender names can map to one engine name. */
  lemma FriendlyNameCollides(prefix: string, suffix: string)
    ensures FriendlyName(prefix + " " + suffix) == FriendlyName(prefix + "_" + suffix)
    ensures FriendlyNodeName(prefix + "." + suffix) == FriendlyNodeName(prefix + "_" + suffix)
  {
    var a, b, c := prefix + " " + suffix, prefix + "_" + suffix, prefix + "." + suffix;
    assert forall i :: 0 <= i < |a| ==> FriendlyName(a)[i] == FriendlyName(b)[i];
    assert forall i :: 0 <= i < |c| ==> FriendlyNodeName(c)[i] == FriendlyNodeName(b)[i];
  }

  /** A name without spaces is left alone by friendlyName. */
  lemma FriendlyNameFixes(name: string)
    requires ' ' !in name
    ensures FriendlyName(name) == name
  {
    assert forall i :: 0 <= i < |name| ==> name[i] != ' ' by {
      forall i | 0 <= i < |name| ensures name[i] != ' ' { assert name[i] in name; }
    }
  }

  /** Sanitising a node name twice changes nothing more. */
  lemma FriendlyNodeNameIdempotent(name: string)
    ensures FriendlyNodeName(FriendlyNodeName(name)) == FriendlyNodeName(name)
  {
    var once := FriendlyNodeName(name);
    FriendlyNameFixes(once);
    assert forall i :: 0 <= i < |once| ==> once[i] != '.' by {
      forall i | 0 <= i < |once| ensures once[i] != '.' { assert once[i] in once; }
    }
  }

  predicate EndsWith(s: string, suffix: string)
  {
    |s| >= |suffix| && s[|s| - |suffix|..] == suffix
  }

  /** The Blender animation channels the exporter recognises by data-path suffix. */
  datatype Channel = Location | RotationEuler | RotationQuaternion | Scale | OtherChannel

  /** No data path ends in two of the recognised suffixes. */
  lemma SuffixesExclusive(s: string)
    ensures !(EndsWith(s, "location") && EndsWith(s, "rotation_euler"))
    ensures !(EndsWith(s, "location") && EndsWith(s, "rotation_quaternion"))
    ensures !(EndsWith(s, "location") && EndsWith(s, "scale"))
    ensures !(EndsWith(s, "rotation_euler") && EndsWith(s, "rotation_quaternion"))
    ensures !(EndsWith(s, "rotation_euler") && EndsWith(s, "scale"))
    ensures !(EndsWith(s, "rotation_quaternion") && EndsWith(s, "scale"))
  {
    if EndsWith(s, "location") {
      assert s[|s| - 1] == 'n';
      assert s[|s| - 8] == 'l';
    }
    if EndsWith(s, "rotation_euler") {
      assert s[|s| - 1] == 'r';
    }
    if EndsWith(s, "rotation_quaternion") {
      assert s[|s| - 1] == 'n';
      assert s[|s| - 8] == 'a';
    }
    if EndsWith(s, "scale") {
      assert s[|s| - 1] == 'e';
    }
  }

  /** The channel of a data path, by its suffix. */
  function ChannelOf(path: string): (c: Channel)
    ensures c == Location <==> EndsWith(path, "location")
    ensures c == RotationEuler <==> EndsWith(path, "rotation_euler")
    ensures c == RotationQuaternion <==> EndsWith(path, "rotation_quaternion")
    ensures c == Scale <==> EndsWith(path, "scale")
  {
    SuffixesExclusive(path);
    if EndsWith(path, "location") then Location
    else if EndsWith(path, "rotation_euler") then RotationEuler
    else if EndsWith(path, "rotation_quaternion") then RotationQuaternion
    else if EndsWith(path, "scale") then Scale
    else OtherChannel
  }

  /** friendlyTransformName: the engine's name of the channel. */
  function FriendlyTransformName(path: string): (r: string)
    ensures r == "TRANSLATE" <==> EndsWith(path, "location")
    ensures r == "ROTATE" <==> EndsWith(path, "rotation_euler")
    ensures r == "QUATERNION_ROTATE" <==> EndsWith(path, "rotation_quaternion")
    ensures r == "SCALE" <==> EndsWith(path, "scale")
    ensures r == "UNKNOWN" <==> ChannelOf(path) == OtherChannel
  {
    SuffixesExclusive(path);
    if EndsWith(path, "location") then "TRANSLATE"
    else if EndsWith(path, "rotation_euler") then "ROTATE"
    else if EndsWith(path, "rotation_quaternion") then "QUATERNION_ROTATE"
    else if EndsWith(path, "scale") then "SCALE"
    else "UNKNOWN"
  }

  /** The component index remapping of friendlyElementName, as its chain of suffix tests
      computes it (at most one test fires). */
  function RemapIndex(index: int, path: string, isJoint: bool): int
  {
    var i1 := if EndsWith(path, "location") && !isJoint then (if index == 1 then 2 else if index == 2 then 1 else index) else index;
    var i2 := if EndsWith(path, "rotation_euler") && !isJoint then (if index == 1 then 2 else if index == 2 then 1 else i1) else i1;
    var i3 := if EndsWith(path, "rotation_quaternion") then
                (if !isJoint then (if index == 0 then 3 else if index == 1 then 0 else if index == 2 then 2 else if index == 3 then 1 else i2)
                 else (if index == 0 then 3 else if index == 1 then 0 else if index == 2 then 1 else if index == 3 then 2 else i2))
              else i2;
    if EndsWith(path, "scale") && !isJoint then (if index == 1 then 2 else if index == 2 then 1 else i3) else i3
  }

  /** friendlyElementName. */
  function FriendlyElementName(index: int, path: string, isJoint: bool): (r: string)
    // Vectors of ordinary nodes swap Y and Z (Blender is Z-up, the engine Y-up); joints keep
    // their order.
    ensures ChannelOf(path) in {Location, RotationEuler, Scale} && 0 <= index < 4 ==>
              r == (if isJoint then ["X", "Y", "Z", "W"] else ["X", "Z", "Y", "W"])[index]
    // Quaternions are stored w first.
    ensures ChannelOf(path) == RotationQuaternion && 0 <= index < 4 ==>
              r == (if isJoint then ["W", "X", "Y", "Z"] else ["W", "X", "Z", "Y"])[index]
    ensures ChannelOf(path) == OtherChannel && 0 <= index < 4 ==> r == ["X", "Y", "Z", "W"][index]
    ensures index < 0 || index >= 4 ==> r == "UNKNOWN"
  {
    SuffixesExclusive(path);
    var k := RemapIndex(index, path, isJoint);
    if k == 0 then "X" else if k == 1 then "Y" else if k == 2 then "Z" else if k == 3 then "W" else "UNKNOWN"
  }

  // ---------------------------------------------------------------------------
  // Data paths

  /** Whether `pat` occurs in `s` starting at position k. */
  predicate OccursAt(s: string, pat: string, k: nat)
  {
    k + |pat| <= |s| && s[k..k + |pat|] == pat
  }

  lemma OccursShift(s: string, pat: string, k: nat)
    requires 1 <= |s|
    ensures OccursAt(s, pat, k + 1) <==> OccursAt(s[1..], pat, k)
  {
    if k + 1 + |pat| <= |s| {
      var a, b := s[k + 1..k + 1 + |pat|], s[1..][k..k + |pat|];
      assert forall t :: 0 <= t < |a| ==> a[t] == b[t];
      assert a == b;
    }
  }

  /** str.find: the first position where `pat` occurs in `s`. */
  function Find(s: string, pat: string): (r: Option<nat>)
    ensures r.Some? ==> OccursAt(s, pat, r.value)
    ensures r.Some? ==> forall k: nat :: k < r.value ==> !OccursAt(s, pat, k)
    ensures r.None? ==> forall k: nat :: !OccursAt(s, pat, k)
    decreases |s|
  {
    if |s| < |pat| then None
    else if s[..|pat|] == pat then Some(0)
    else
      match Find(s[1..], pat)
      case None =>
        forall k: nat ensures !OccursAt(s, pat, k) {
          if k > 0 { OccursShift(s, pat, k - 1); }
        }
        None
      case Some(i) =>
        OccursShift(s, pat, i);
        forall k: nat | k < i + 1 ensures !OccursAt(s, pat, k) {
          if k > 0 { OccursShift(s, pat, k - 1); }
        }
        Some(i + 1)
  }

  /** extractNode: the text between the first `["` and the next `"`. */
  function ExtractNode(path: Option<string>): (r: Option<string>)
    ensures path.None? ==> r.None?
    ensures path.Some? && Find(path.value, "[\"").None? ==> r.None?
    ensures (path.Some? && Find(path.value, "[\"").Some?
             && Find(path.value[Find(path.value, "[\"").value + 2..], "\"").None?) ==> r.None?
    ensures r.Some? ==> '"' !in r.value
  {
    if path.None? then None
    else
      match Find(path.value, "[\"")
      case None => None
      case Some(open) =>
        var rest := path.value[open + 2..];
        match Find(rest, "\"")
        case None => None
        case Some(close) =>
          forall k: nat | k < close ensures rest[k] != '"' {
            assert !OccursAt(rest, "\"", k);
            assert rest[k..k + 1] == [rest[k]];
          }
          Some(rest[..close])
  }

  /** A first occurrence is what find reports. */
  lemma FindFirst(s: string, pat: string, k: nat)
    requires OccursAt(s, pat, k)
    requires forall j: nat :: j < k ==> !OccursAt(s, pat, j)
    ensures Find(s, pat) == Some(k)
  {
  }

  lemma OpenerAfterPrefix(prefix: string, rest: string)
    requires Find(prefix + "[", "[\"").None?
    ensures Find(prefix + "[\"" + rest, "[\"") == Some(|prefix|)
  {
    var s := prefix + "[\"" + rest;
    var p := prefix + "[";
    assert s[|prefix|..|prefix| + 2] == "[\"";
    forall k: nat | k < |prefix| ensures !OccursAt(s, "[\"", k) {
      assert !OccursAt(p, "[\"", k);
      if k + 1 < |prefix| {
        assert s[k] == p[k] && s[k + 1] == p[k + 1];
        assert s[k..k + 2] == [s[k], s[k + 1]];
        assert p[k..k + 2] == [p[k], p[k + 1]];
      } else {
        assert s[k + 1] == '[';
        assert s[k..k + 2] == [s[k], s[k + 1]];
      }
    }
    FindFirst(s, "[\"", |prefix|);
  }

  lemma CloserAfterName(bone: string, suffix: string)
    requires '"' !in bone
    ensures Find(bone + "\"" + suffix, "\"") == Some(|bone|)
  {
    var rest := bone + "\"" + suffix;
    forall k: nat | k < |bone| ensures !OccursAt(rest, "\"", k) {
      assert rest[k] == bone[k];
      assert bone[k] in bone;
      assert rest[k..k + 1] == [rest[k]];
    }
    assert rest[|bone|..|bone| + 1] == "\"";
    FindFirst(rest, "\"", |bone|);
  }

  /** The bone name of a pose-bone data path is recovered. */
  lemma ExtractNodeRoundTrip(prefix: string, bone: string, suffix: string)
    requires Find(prefix + "[", "[\"").None?
    requires '"' !in bone
    ensures ExtractNode(Some(prefix + "[\"" + bone + "\"" + suffix)) == Some(bone)
  {
    var s := prefix + "[\"" + bone + "\"" + suffix;
    OpenerAfterPrefix(prefix, bone + "\"" + suffix);
    assert s == prefix + "[\"" + (bone + "\"" + suffix);
    assert s[|prefix| + 2..] == bone + "\"" + suffix;
    CloserAfterName(bone, suffix);
    assert (bone + "\"" + suffix)[..|bone|] == bone;
  }

  // ---------------------------------------------------------------------------
  // Axis conversion

  /** convertLocation: Blender's Z-up (x, y, z) as the engine's Y-up (x, z, -y). */
  function ConvertLocation(v: Vec3): (r: Vec3)
  {
    [v[0], v[2], -v[1]]
  }

  /** The inverse conversion, engine to Blender. */
  function UnconvertLocation(v: Vec3): (r: Vec3)
    ensures ConvertLocation(r) == v
  {
    [v[0], -v[2], v[1]]
  }

  /** The conversion is a quarter turn about X: undone by its inverse, the identity after four
      applications, and it keeps the length. */
  lemma ConvertLocationTurn(v: Vec3)
    ensures UnconvertLocation(ConvertLocation(v)) == v
    ensures ConvertLocation(ConvertLocation(v)) == [v[0], -v[1], -v[2]]
    ensures ConvertLocation(ConvertLocation(ConvertLocation(ConvertLocation(v)))) == v
    ensures var r := ConvertLocation(v); r[0] * r[0] + r[1] * r[1] + r[2] * r[2] == v[0] * v[0] + v[1] * v[1] + v[2] * v[2]
  {
  }

  /** convertScale: the Y and Z factors swapped. */
  function ConvertScale(v: Vec3): (r: Vec3)
  {
    [v[0], v[2], v[1]]
  }

  lemma ConvertScaleInvolution(v: Vec3)
    ensures ConvertScale(ConvertScale(v)) == v
    ensures ConvertScale(v) == v <==> v[1] == v[2]
  {
  }

  /** convertRotation, `degrees` standing for math.degrees. */
  function ConvertRotation(v: Vec3, degrees: real -> real): (r: Vec3)
  {
    [degrees(v[0]), degrees(v[2]), -degrees(v[1])]
  }

  function InDegrees(v: Vec3, degrees: real -> real): Vec3
  {
    [degrees(v[0]), degrees(v[1]), degrees(v[2])]
  }

  /** Euler angles are reordered exactly like locations, after the unit change. */
  lemma ConvertRotationIsLocation(v: Vec3, degrees: real -> real)
    ensures ConvertRotation(v, degrees) == ConvertLocation(InDegrees(v, degrees))
  {
  }

  /** The NoAdjust variants keep the axes as they are. convertLocationNoAdjust and
      convertScaleNoAdjust have the same body; this one function stands for both. */
  function ConvertLocationNoAdjust(v: Vec3): (r: Vec3)
    ensures r == v
  {
    [v[0], v[1], v[2]]
  }

  function ConvertRotationNoAdjust(v: Vec3, degrees: real -> real): (r: Vec3)
    ensures r == InDegrees(v, degrees)
  {
    [degrees(v[0]), degrees(v[1]), degrees(v[2])]
  }

  // ---------------------------------------------------------------------------
  // The open-node queue

  predicate NoDuplicates(q: seq<nat>)
  {
    forall i, j :: 0 <= i < j < |q| ==> q[i] != q[j]
  }

  /** The last queue position holding a node among the first n that `targets` lists. */
  function LastLinked(queue: seq<nat>, targets: seq<nat>, n: nat): (r: Option<nat>)
    requires n <= |queue|
    ensures r.None? <==> forall p :: 0 <= p < n ==> queue[p] !in targets
    ensures r.Some? ==> r.value < n && queue[r.value] in targets
    ensures r.Some? ==> forall p :: r.value < p < n ==> queue[p] !in targets
  {
    if n == 0 then None
    else if queue[n - 1] in targets then Some(n - 1)
    else LastLinked(queue, targets, n - 1)
  }

  /** enqueueNode: `targets` lists the nodes the current node's output links lead to. The
      insert-index list is kept as its running maximum. */
  method EnqueueNode(queue: seq<nat>, current: nat, targets: seq<nat>) returns (r: seq<nat>)
    ensures current in queue ==> r == queue
    ensures current !in queue && LastLinked(queue, targets, |queue|).None? ==> r == queue + [current]
    ensures current !in queue && LastLinked(queue, targets, |queue|).Some? ==>
              var p := LastLinked(queue, targets, |queue|).value;
              r == queue[..p + 1] + [current] + queue[p + 1..]
  {
    if current in queue {
      return queue;
    }
    var best := 0;
    var l := 0;
    while l < |targets|
      invariant l <= |targets|
      invariant best <= |queue|
      invariant forall p :: 0 <= p < |queue| && queue[p] in targets[..l] ==> p + 1 <= best
      invariant best > 0 ==> queue[best - 1] in targets
    {
      var q := 0;
      while q < |queue|
        invariant q <= |queue| && best <= |queue|
        invariant forall p :: 0 <= p < |queue| && queue[p] in targets[..l] ==> p + 1 <= best
        invariant forall p :: 0 <= p < q && queue[p] == targets[l] ==> p + 1 <= best
        invariant best > 0 ==> queue[best - 1] in targets
      {
        if targets[l] == queue[q] && q + 1 > best {
          best := q + 1;
        }
        q := q + 1;
      }
      assert targets[..l + 1] == targets[..l] + [targets[l]];
      l := l + 1;
    }
    assert targets[..l] == targets;
    var last := LastLinked(queue, targets, |queue|);
    if best == 0 || |queue| == 0 {
      assert last.None?;
      r := queue + [current];
    } else {
      assert last == Some(best - 1);
      r := queue[..best] + [current] + queue[best..];
    }
  }

  /** Inserting a new element at position i of a duplicate-free queue. */
  lemma InsertFresh(queue: seq<nat>, i: nat, x: nat)
    requires NoDuplicates(queue) && x !in queue && i <= |queue|
    ensures var r := queue[..i] + [x] + queue[i..];
      && NoDuplicates(r) && |r| == |queue| + 1
      && multiset(r) == multiset(queue) + multiset{x}
      && r[i] == x
      && (forall k :: 0 <= k < i ==> r[k] == queue[k])
      && (forall k :: i < k < |r| ==> r[k] == queue[k - 1])
  {
    var r := queue[..i] + [x] + queue[i..];
    assert queue == queue[..i] + queue[i..];
    forall a, b | 0 <= a < b < |r| ensures r[a] != r[b] {
      if b == i {
        assert r[a] == queue[a];
      } else if a == i {
        assert r[b] == queue[b - 1];
      } else {
        var qa := if a < i then a else a - 1;
        var qb := if b < i then b else b - 1;
        assert r[a] == queue[qa] && r[b] == queue[qb];
      }
    }
  }

  /** Inserting x at position i, where no later queued node is a target, puts every
      target ahead of x. */
  lemma InsertAfterTargets(queue: seq<nat>, i: nat, x: nat, targets: seq<nat>)
    requires x !in queue && i <= |queue|
    requires forall k :: i <= k < |queue| ==> queue[k] !in targets
    ensures var r := queue[..i] + [x] + queue[i..];
      forall a, b :: 0 <= a < |r| && 0 <= b < |r| && r[a] in targets && r[a] != x && r[b] == x ==> a < b
  {
  }

  /** A queue without duplicates keeps none, grows by exactly one, and has every queued
      node the current one links to before it. */
  lemma EnqueuePreservesOrder(queue: seq<nat>, current: nat, targets: seq<nat>, r: seq<nat>)
    requires NoDuplicates(queue) && current !in queue
    requires LastLinked(queue, targets, |queue|).None? ==> r == queue + [current]
    requires LastLinked(queue, targets, |queue|).Some? ==>
               r == queue[..LastLinked(queue, targets, |queue|).value + 1] + [current]
                    + queue[LastLinked(queue, targets, |queue|).value + 1..]
    ensures NoDuplicates(r) && |r| == |queue| + 1
    ensures multiset(r) == multiset(queue) + multiset{current}
    ensures forall i, j :: 0 <= i < |r| && 0 <= j < |r| && r[i] in targets && r[i] != current && r[j] == current ==> i < j
  {
    var at := match LastLinked(queue, targets, |queue|) case None => |queue| case Some(p) => p + 1;
    assert queue + [current] == queue[..|queue|] + [current] + queue[|queue|..];
    assert r == queue[..at] + [current] + queue[at..];
    InsertFresh(queue, at, current);
    InsertAfterTargets(queue, at, current, targets);
  }

  // ---------------------------------------------------------------------------
  // Bone padding

  const MaxBones := 8

  /** The eight bone slots of one vertex: joint indices, weights, and how many are used. */
  datatype PaddedBones = PaddedBones(indices: seq<real>, weights: seq<real>, numberBones: real)

  /** The bone slots of one vertex: `groups` are its (vertex-group name, weight) pairs in the
      order the vertex lists them, and `boneIndex` maps the pose-bone names of the armatures
      to joint indices. A group among the first eight whose name is no bone raises KeyError
      in the lookup, which aborts the export (None). */
  method PadBones(groups: seq<(string, real)>, boneIndex: map<string, int>) returns (r: Option<PaddedBones>)
    ensures r.None? <==> exists k :: 0 <= k < |groups| && k < MaxBones && groups[k].0 !in boneIndex
    ensures r.Some? ==> |r.value.indices| == MaxBones && |r.value.weights| == MaxBones
    ensures r.Some? ==> r.value.numberBones == (if |groups| < MaxBones then |groups| else MaxBones) as real
    ensures r.Some? ==> forall k :: 0 <= k < MaxBones && k < |groups| ==>
              groups[k].0 in boneIndex && r.value.indices[k] == boneIndex[groups[k].0] as real
              && r.value.weights[k] == groups[k].1
    ensures r.Some? ==> forall k :: |groups| <= k < MaxBones ==> r.value.indices[k] == -1.0 && r.value.weights[k] == 0.0
  {
    var indices: seq<real>, weights: seq<real>, numberBones := [], [], 0.0;
    var n := 0;
    while n < |groups|
      invariant n <= |groups| && n < MaxBones
      invariant numberBones == n as real
      invariant |indices| == n && |weights| == n
      invariant forall k :: 0 <= k < n ==>
                  groups[k].0 in boneIndex && indices[k] == boneIndex[groups[k].0] as real && weights[k] == groups[k].1
    {
      if groups[n].0 !in boneIndex {
        return None;
      }
      indices := indices + [boneIndex[groups[n].0] as real];
      weights := weights + [groups[n].1];
      numberBones := numberBones + 1.0;
      n := n + 1;
      if numberBones == 8.0 {
        break;
      }
    }
    var iterate := n;
    while iterate < MaxBones
      invariant n <= iterate <= MaxBones
      invariant |indices| == iterate && |weights| == iterate
      invariant forall k :: 0 <= k < n ==>
                  groups[k].0 in boneIndex && indices[k] == boneIndex[groups[k].0] as real && weights[k] == groups[k].1
      invariant forall k :: n <= k < iterate ==> indices[k] == -1.0 && weights[k] == 0.0
    {
      indices := indices + [-1.0];
      weights := weights + [0.0];
      iterate := iterate + 1;
    }
    r := Some(PaddedBones(indices, weights, numberBones));
  }
}

=== FILE: gltf_load.dfy ===
/** The glTF 1.0 import: primitives become sub-meshes, glTF nodes become scene-graph nodes
    (transform, skin, joint index, meshes, children), every root node of the chosen scene
    becomes one object. The JSON parse is taken as done: the input is the parsed document. */
module GltfLoad {
  import opened Wrappers
  import opened Lists
  import opened Vectors
  import opened SceneGraph

  /** A glTF accessor, reduced to its element count. */
  datatype Accessor = Accessor(count: nat)

  /** A mesh primitive: the position and index accessors and the primitive mode code. */
  datatype Primitive = Primitive(position: Option<Accessor>, indices: Option<Accessor>, mode: int)

  datatype GltfMesh = GltfMesh(name: string, primitives: seq<Primitive>)

  /** A skin: its bind-shape matrix, the joint names in order, and the number of joint
      nodes resolved for it. */
  datatype Skin = Skin(bindShapeMatrix: seq<real>, jointNames: seq<string>, jointNodeCount: nat)

  type Quaternion = q: seq<real> | |q| == 4 witness [0.0, 0.0, 0.0, 1.0]

  /** A parsed glTF node. `id` is its key in the document's node dictionary; children and
      skeletons are given as key plus resolved node, as the parser pairs them. */
  datatype GltfNode = GltfNode(
    id: string,
    name: string,
    useMatrix: bool,
    matrix: seq<real>,
    useTranslation: bool,
    translation: Vec3,
    useRotation: bool,
    rotation: Quaternion,
    useScale: bool,
    scale: Vec3,
    skin: Option<Skin>,
    jointName: string,
    meshes: seq<GltfMesh>,
    children: seq<Link>,
    skeletons: seq<Link>)

  datatype Link = Link(key: string, node: GltfNode)

  datatype GltfScene = GltfScene(name: string, nodes: seq<GltfNode>)

  /** The parsed document: its default scene (if any), its scenes in order, and all nodes
      by key. */
  datatype Document = Document(defaultScene: Option<GltfScene>, scenes: seq<GltfScene>, allNodes: map<string, GltfNode>)

  /** What the import calls but this model does not define: the matrix decompositions, the
      quaternion-to-matrix conversion, and the render factory's joint buffer preparation
      (node name, joint count) reporting success. */
  datatype Importer = Importer(
    decompose: Decomposer,
    quatToMatrix: Quaternion -> Mat4,
    prepareJoints: (string, int) -> bool)

  // ---------------------------------------------------------------------------
  // Integer conversions

  /** The (int32_t) cast of an unsigned count: two's-complement wrap-around. */
  function Int32Cast(n: nat): (r: int)
    ensures -0x8000_0000 <= r < 0x8000_0000
    ensures (n - r) % 0x1_0000_0000 == 0
    ensures n < 0x8000_0000 ==> r == n
  {
    var m := n % 0x1_0000_0000;
    if m >= 0x8000_0000 then m - 0x1_0000_0000 else m
  }

  function Digit(d: nat): (c: char)
    requires d < 10
    ensures '0' <= c <= '9'
  {
    "0123456789"[d]
  }

  /** std::to_string of an unsigned index: its decimal digits. */
  function NatToString(n: nat): (r: string)
    ensures 1 <= |r|
    ensures n >= 10 ==> |r| >= 2
    ensures forall i :: 0 <= i < |r| ==> '0' <= r[i] <= '9'
    ensures r[|r| - 1] == Digit(n % 10)
  {
    if n < 10 then [Digit(n)] else NatToString(n / 10) + [Digit(n % 10)]
  }

  lemma DigitInjective(a: nat, b: nat)
    requires a < 10 && b < 10 && Digit(a) == Digit(b)
    ensures a == b
  {
  }

  /** Different indices print differently, so the generated mesh names of a node differ. */
  lemma {:induction false} NatToStringInjective(a: nat, b: nat)
    requires NatToString(a) == NatToString(b)
    ensures a == b
  {
    var sa, sb := NatToString(a), NatToString(b);
    DigitInjective(a % 10, b % 10);
    if a >= 10 && b >= 10 {
      NatToStringPrefix(a);
      NatToStringPrefix(b);
      NatToStringInjective(a / 10, b / 10);
      SameQuotientAndRemainder(a, b);
    }
  }

  lemma NatToStringPrefix(n: nat)
    requires n >= 10
    ensures NatToString(n)[..|NatToString(n)| - 1] == NatToString(n / 10)
  {
    var p := NatToString(n / 10);
    assert NatToString(n) == p + [Digit(n % 10)];
    assert (p + [Digit(n % 10)])[..|p|] == p;
  }

  lemma SameQuotientAndRemainder(a: nat, b: nat)
    requires a / 10 == b / 10 && a % 10 == b % 10
    ensures a == b
  {
  }

  // ---------------------------------------------------------------------------
  // Primitives and sub-meshes

  /** The primitive mode codes of section "Meshes" of the glTF 1.0 specification that the
      importer accepts; 2 (LINE_LOOP) and every other code have no topology. */
  function TopologyOf(mode: int): (r: Option<Topology>)
    ensures r.None? <==> mode !in {0, 1, 3, 4, 5, 6}
  {
    match mode
    case 0 => Some(PointList)
    case 1 => Some(LineList)
    case 3 => Some(LineStrip)
    case 4 => Some(TriangleList)
    case 5 => Some(TriangleStrip)
    case 6 => Some(TriangleFan)
    case _ => None
  }

  /** The glTF mode code of a topology. */
  function TopologyCode(t: Topology): (mode: int)
    ensures 0 <= mode <= 6 && mode != 2
  {
    match t
    case PointList => 0
    case LineList => 1
    case LineStrip => 3
    case TriangleList => 4
    case TriangleStrip => 5
    case TriangleFan => 6
  }

  /** The mode mapping is a bijection between the accepted codes and the topologies. */
  lemma TopologyRoundTrip(t: Topology, mode: int)
    ensures TopologyOf(TopologyCode(t)) == Some(t)
    ensures TopologyOf(mode).Some? ==> TopologyCode(TopologyOf(mode).value) == mode
  {
  }

  /** gltfProcessSubMesh on a sub-mesh already named `name`. */
  function ProcessSubMesh(name: string, p: Primitive): (r: Option<SubMesh>)
    // No position accessor, or a mode without a topology, fails.
    ensures r.None? <==> p.position.None? || TopologyOf(p.mode).None?
    ensures r.Some? ==> r.value.name == name && r.value.vertexOffset == 0 && r.value.material.None?
    ensures r.Some? ==> r.value.numberVertices == Int32Cast(p.position.value.count)
    // Without an index accessor every vertex is drawn once.
    ensures r.Some? && p.indices.None? ==> r.value.numberIndices == r.value.numberVertices
    ensures r.Some? && p.indices.Some? ==> r.value.numberIndices == Int32Cast(p.indices.value.count)
    ensures r.Some? ==> TopologyCode(r.value.topology) == p.mode
  {
    if p.position.None? then None
    else
      var vertices := Int32Cast(p.position.value.count);
      var indices := if p.indices.Some? then Int32Cast(p.indices.value.count) else vertices;
      match TopologyOf(p.mode)
      case None => None
      case Some(t) => Some(SubMesh(name, vertices, indices, 0, t, None))
  }

  function MeshName(nodeName: string, i: nat): string
  {
    nodeName + "_Mesh_" + NatToString(i)
  }

  function SubMeshName(nodeName: string, k: nat): string
  {
    nodeName + "_SubMesh_" + NatToString(k)
  }

  /** The first n primitives of a glTF mesh as sub-meshes; one failure fails them all. */
  function ProcessSubMeshes(nodeName: string, ps: seq<Primitive>, n: nat): (r: Option<seq<SubMesh>>)
    requires n <= |ps|
    ensures r.None? <==> exists k :: 0 <= k < n && ProcessSubMesh(SubMeshName(nodeName, k), ps[k]).None?
    ensures r.Some? ==> |r.value| == n
    ensures r.Some? ==> forall k :: 0 <= k < n ==> Some(r.value[k]) == ProcessSubMesh(SubMeshName(nodeName, k), ps[k])
  {
    if n == 0 then Some([])
    else
      match ProcessSubMeshes(nodeName, ps, n - 1)
      case None => None
      case Some(prefix) =>
        match ProcessSubMesh(SubMeshName(nodeName, n - 1), ps[n - 1])
        case None => None
        case Some(sm) => Some(prefix + [sm])
  }

  /** The first n glTF meshes of a node as meshes named name_Mesh_i. */
  function ProcessMeshes(nodeName: string, ms: seq<GltfMesh>, n: nat): (r: Option<seq<Mesh>>)
    requires n <= |ms|
    ensures r.None? <==> exists i :: 0 <= i < n && ProcessSubMeshes(nodeName, ms[i].primitives, |ms[i].primitives|).None?
    ensures r.Some? ==> |r.value| == n
    ensures r.Some? ==> forall i :: 0 <= i < n ==>
              r.value[i].name == MeshName(nodeName, i)
              && Some(r.value[i].subMeshes) == ProcessSubMeshes(nodeName, ms[i].primitives, |ms[i].primitives|)
  {
    if n == 0 then Some([])
    else
      match ProcessMeshes(nodeName, ms, n - 1)
      case None => None
      case Some(prefix) =>
        match ProcessSubMeshes(nodeName, ms[n - 1].primitives, |ms[n - 1].primitives|)
        case None => None
        case Some(subs) => Some(prefix + [Mesh(MeshName(nodeName, n - 1), subs)])
  }

  /** The meshes of one node carry pairwise different names. */
  lemma MeshNamesDistinct(nodeName: string, i: nat, j: nat)
    requires MeshName(nodeName, i) == MeshName(nodeName, j)
    ensures i == j
  {
    var p := nodeName + "_Mesh_";
    assert MeshName(nodeName, i)[|p|..] == NatToString(i);
    assert MeshName(nodeName, j)[|p|..] == NatToString(j);
    NatToStringInjective(i, j);
  }

  /** Sub-mesh names carry the node name and the primitive index only, so primitive k of two
      different meshes of one node gets the same name; the registry lookup by that name
      cannot tell them apart. */
  lemma SubMeshNamesCollide(nodeName: string, ms: seq<GltfMesh>, i: nat, i': nat, k: nat)
    requires ProcessMeshes(nodeName, ms, |ms|).Some?
    requires i < i' < |ms| && k < |ms[i].primitives| && k < |ms[i'].primitives|
    ensures ProcessMeshes(nodeName, ms, |ms|).value[i].subMeshes[k].name
            == ProcessMeshes(nodeName, ms, |ms|).value[i'].subMeshes[k].name
            == SubMeshName(nodeName, k)
  {
    var r := ProcessMeshes(nodeName, ms, |ms|).value;
    assert Some(r[i].subMeshes) == ProcessSubMeshes(nodeName, ms[i].primitives, |ms[i].primitives|);
    assert Some(r[i'].subMeshes) == ProcessSubMeshes(nodeName, ms[i'].primitives, |ms[i'].primitives|);
    assert Some(r[i].subMeshes[k]) == ProcessSubMesh(SubMeshName(nodeName, k), ms[i].primitives[k]);
    assert Some(r[i'].subMeshes[k]) == ProcessSubMesh(SubMeshName(nodeName, k), ms[i'].primitives[k]);
  }

  // ---------------------------------------------------------------------------
  // Nodes

  datatype Transform = Transform(translate: Vec3, rotate: Vec3, scale: Vec3)

  function Decomposed(imp: Importer, m: seq<real>): Transform
  {
    Transform(imp.decompose.translate(Mat4(m)), imp.decompose.rotateRzRyRx(Mat4(m)), imp.decompose.scale(Mat4(m)))
  }

  /** The node's own transform: all of it decomposed from the matrix when there is one,
      otherwise each component that is present, the factory defaults for the rest. */
  function LocalTransform(imp: Importer, g: GltfNode): (t: Transform)
    ensures g.useMatrix ==> t == Decomposed(imp, g.matrix)
    ensures !g.useMatrix ==> t.translate == (if g.useTranslation then g.translation else NewNode("").translate)
    ensures !g.useMatrix ==>
              t.rotate == (if g.useRotation then imp.decompose.rotateRzRyRx(imp.quatToMatrix(g.rotation)) else NewNode("").rotate)
    ensures !g.useMatrix ==> t.scale == (if g.useScale then g.scale else NewNode("").scale)
  {
    if g.useMatrix then Decomposed(imp, g.matrix)
    else
      Transform(
        if g.useTranslation then g.translation else Zero,
        if g.useRotation then imp.decompose.rotateRzRyRx(imp.quatToMatrix(g.rotation)) else Zero,
        if g.useScale then g.scale else One)
  }

  /** The name and armature flag of a node already built, as its descendants see it
      through the parent links. */
  datatype Ancestor = Ancestor(name: string, armature: bool)

  /** The nearest armature among the ancestors, listed nearest first. */
  function NearestArmature(ancestors: seq<Ancestor>): (r: Option<nat>)
    ensures r.None? <==> forall k :: 0 <= k < |ancestors| ==> !ancestors[k].armature
    ensures r.Some? ==> r.value < |ancestors| && ancestors[r.value].armature
    ensures r.Some? ==> forall k :: 0 <= k < r.value ==> !ancestors[k].armature
  {
    if |ancestors| == 0 then None
    else if ancestors[0].armature then Some(0)
    else
      match NearestArmature(ancestors[1..])
      case None => None
      case Some(k) => Some(k + 1)
  }

  /** The joint names of the nearest armature ancestor's skin; none without an armature
      ancestor, and none when that armature has no skin (a missing dictionary entry counts
      as skinless). */
  function ArmatureJoints(doc: Document, ancestors: seq<Ancestor>): Option<seq<string>>
  {
    match NearestArmature(ancestors)
    case None => None
    case Some(k) =>
      var a := ancestors[k].name;
      if a !in doc.allNodes || doc.allNodes[a].skin.None? then None
      else Some(doc.allNodes[a].skin.value.jointNames)
  }

  /** The joint index of a joint-named node called `name`: its position in the joint list of
      the nearest armature ancestor's skin. */
  function ResolveJointIndex(doc: Document, name: string, ancestors: seq<Ancestor>): (r: Option<nat>)
    ensures |ancestors| == 0 ==> r.None?
    ensures ArmatureJoints(doc, ancestors).None? ==> r.None?
    ensures ArmatureJoints(doc, ancestors).Some? ==> (r.None? <==> name !in ArmatureJoints(doc, ancestors).value)
    ensures r.Some? ==> ArmatureJoints(doc, ancestors).Some?
                        && r.value < |ArmatureJoints(doc, ancestors).value|
                        && ArmatureJoints(doc, ancestors).value[r.value] == name
                        && name !in ArmatureJoints(doc, ancestors).value[..r.value]
  {
    if |ancestors| == 0 then None
    else
      match ArmatureJoints(doc, ancestors)
      case None => None
      case Some(names) => IndexOf(names, name)
  }

  /** gltfProcessNode on a fresh node called `name` whose ancestors are `ancestors`. */
  function ProcessNode(imp: Importer, doc: Document, name: string, g: GltfNode, ancestors: seq<Ancestor>): (r: Option<Node>)
    // Failures: the joint buffer, the joint resolution, any primitive.
    ensures g.skin.Some? && !imp.prepareJoints(name, Int32Cast(g.skin.value.jointNodeCount)) ==> r.None?
    ensures g.jointName != "" && ResolveJointIndex(doc, name, ancestors).None? ==> r.None?
    ensures ProcessMeshes(name, g.meshes, |g.meshes|).None? ==> r.None?
    ensures r.Some? ==> r.value.name == name && r.value.rotationMode == EulerXYZ
    // A skin makes the node an armature and its bind shape overrides the node's transform.
    ensures r.Some? ==> (r.value.armature <==> g.skin.Some?)
    ensures r.Some? && g.skin.Some? ==>
              Transform(r.value.translate, r.value.rotate, r.value.scale) == Decomposed(imp, g.skin.value.bindShapeMatrix)
    ensures r.Some? && g.skin.None? ==> Transform(r.value.translate, r.value.rotate, r.value.scale) == LocalTransform(imp, g)
    ensures r.Some? && g.jointName == "" ==> r.value.jointIndex == -1
    ensures r.Some? && g.jointName != "" ==> r.value.jointIndex == Int32Cast(ResolveJointIndex(doc, name, ancestors).value)
    ensures r.Some? ==> Some(r.value.meshes) == ProcessMeshes(name, g.meshes, |g.meshes|)
    // Children first, then skeletons, each named by its key, in declared order.
    ensures r.Some? ==> |r.value.children| == |g.children| + |g.skeletons|
    ensures r.Some? ==> forall j :: 0 <= j < |g.children| ==> r.value.children[j].name == g.children[j].key
    ensures r.Some? ==> forall j :: 0 <= j < |g.skeletons| ==> r.value.children[|g.children| + j].name == g.skeletons[j].key
    decreases g, 1
  {
    var armature := g.skin.Some?;
    if armature && !imp.prepareJoints(name, Int32Cast(g.skin.value.jointNodeCount)) then None
    else
      var t := if armature then Decomposed(imp, g.skin.value.bindShapeMatrix) else LocalTransform(imp, g);
      var joint := if g.jointName == "" then Some(-1)
                   else match ResolveJointIndex(doc, name, ancestors)
                     case None => None
                     case Some(k) => Some(Int32Cast(k));
      if joint.None? then None
      else
        match ProcessMeshes(name, g.meshes, |g.meshes|)
        case None => None
        case Some(meshes) =>
          var self := [Ancestor(name, armature)] + ancestors;
          match ProcessLinks(imp, doc, g.children, self)
          case None => None
          case Some(children) =>
            match ProcessLinks(imp, doc, g.skeletons, self)
            case None => None
            case Some(skeletons) =>
              Some(Node(name, EulerXYZ, t.translate, t.rotate, t.scale, joint.value, armature, meshes,
                        children + skeletons, NewNode(name).transformWrite, NewNode(name).jointWrite))
  }

  /** The child (or skeleton) links of one node, each becoming a node named by its key; the
      first failure aborts. */
  function ProcessLinks(imp: Importer, doc: Document, links: seq<Link>, ancestors: seq<Ancestor>): (r: Option<seq<Node>>)
    ensures r.Some? ==> |r.value| == |links|
    ensures r.Some? ==> forall j :: 0 <= j < |links| ==> r.value[j].name == links[j].key
    decreases links, 0
  {
    if |links| == 0 then Some([])
    else
      match ProcessNode(imp, doc, links[0].key, links[0].node, ancestors)
      case None => None
      case Some(first) =>
        match ProcessLinks(imp, doc, links[1..], ancestors)
        case None => None
        case Some(rest) =>
          assert forall j :: 1 <= j < |links| ==> links[1..][j - 1] == links[j];
          Some([first] + rest)
  }

  /** Whether the node a link leads to fails to process under `ancestors`. */
  predicate LinkFails(imp: Importer, doc: Document, l: Link, ancestors: seq<Ancestor>)
  {
    ProcessNode(imp, doc, l.key, l.node, ancestors).None?
  }

  /** The links fail exactly when one of the linked nodes fails. */
  lemma {:induction false} ProcessLinksMeaning(imp: Importer, doc: Document, links: seq<Link>, ancestors: seq<Ancestor>)
    ensures ProcessLinks(imp, doc, links, ancestors).None? <==>
              exists j :: 0 <= j < |links| && LinkFails(imp, doc, links[j], ancestors)
    decreases |links|
  {
    if |links| > 0 {
      var tail := links[1..];
      ProcessLinksMeaning(imp, doc, tail, ancestors);
      if !LinkFails(imp, doc, links[0], ancestors) {
        assert forall j :: 0 <= j < |tail| ==> tail[j] == links[j + 1];
        assert forall j :: 1 <= j < |links| ==> links[j] == tail[j - 1];
      }
    }
  }

  /** Whether the node a link leads to processes, under `ancestors`, into `n`. */
  predicate LinkYields(imp: Importer, doc: Document, l: Link, ancestors: seq<Ancestor>, n: Node)
  {
    ProcessNode(imp, doc, l.key, l.node, ancestors) == Some(n)
  }

  /** Entry j of the processed links is link j's node processed under the same ancestors. */
  lemma {:induction false} ProcessLinksEach(imp: Importer, doc: Document, links: seq<Link>, ancestors: seq<Ancestor>)
    ensures ProcessLinks(imp, doc, links, ancestors).Some? ==>
              forall j :: 0 <= j < |links| ==>
                LinkYields(imp, doc, links[j], ancestors, ProcessLinks(imp, doc, links, ancestors).value[j])
    decreases |links|
  {
    var r := ProcessLinks(imp, doc, links, ancestors);
    if |links| > 0 && r.Some? {
      var tail := links[1..];
      var first := ProcessNode(imp, doc, links[0].key, links[0].node, ancestors);
      var rest := ProcessLinks(imp, doc, tail, ancestors);
      assert first.Some? && rest.Some? && r.value == [first.value] + rest.value;
      ProcessLinksEach(imp, doc, tail, ancestors);
      assert LinkYields(imp, doc, links[0], ancestors, r.value[0]);
      forall j | 1 <= j < |links|
        ensures LinkYields(imp, doc, links[j], ancestors, r.value[j])
      {
        assert links[j] == tail[j - 1] && r.value[j] == rest.value[j - 1];
      }
    }
  }

  /** A processed node's children are its child links processed, then its skeleton links,
      each with the parent prepended to the ancestors, as setParentNode does before the
      recursive call; entry by entry this is ProcessLinksEach. */
  lemma ChildrenFromLinks(imp: Importer, doc: Document, name: string, g: GltfNode, ancestors: seq<Ancestor>)
    ensures ProcessNode(imp, doc, name, g, ancestors).Some? ==>
              ProcessLinks(imp, doc, g.children, [Ancestor(name, g.skin.Some?)] + ancestors).Some?
              && ProcessLinks(imp, doc, g.skeletons, [Ancestor(name, g.skin.Some?)] + ancestors).Some?
              && ProcessNode(imp, doc, name, g, ancestors).value.children
                 == ProcessLinks(imp, doc, g.children, [Ancestor(name, g.skin.Some?)] + ancestors).value
                    + ProcessLinks(imp, doc, g.skeletons, [Ancestor(name, g.skin.Some?)] + ancestors).value
  {
  }

  /** Under a skinned parent, a joint-named child takes as its joint index the first
      position of its own name in the joint list the document records for that parent. */
  lemma SkinnedParentJointIndex(imp: Importer, doc: Document, name: string, g: GltfNode, ancestors: seq<Ancestor>, j: nat)
    requires ProcessNode(imp, doc, name, g, ancestors).Some?
    requires g.skin.Some? && name in doc.allNodes && doc.allNodes[name].skin.Some?
    requires j < |g.children| && g.children[j].node.jointName != ""
    ensures g.children[j].key in doc.allNodes[name].skin.value.jointNames
    ensures ProcessNode(imp, doc, name, g, ancestors).value.children[j].jointIndex
            == Int32Cast(IndexOf(doc.allNodes[name].skin.value.jointNames, g.children[j].key).value)
  {
    var self := [Ancestor(name, true)] + ancestors;
    ChildrenFromLinks(imp, doc, name, g, ancestors);
    ProcessLinksEach(imp, doc, g.children, self);
    var cs := ProcessLinks(imp, doc, g.children, self).value;
    assert LinkYields(imp, doc, g.children[j], self, cs[j]);
    assert ProcessNode(imp, doc, name, g, ancestors).value.children[j] == cs[j];
    assert NearestArmature(self) == Some(0);
    assert ArmatureJoints(doc, self) == Some(doc.allNodes[name].skin.value.jointNames);
  }

  /** The same for a skeleton link, which lands after the children. */
  lemma SkinnedParentSkeletonJointIndex(imp: Importer, doc: Document, name: string, g: GltfNode, ancestors: seq<Ancestor>, j: nat)
    requires ProcessNode(imp, doc, name, g, ancestors).Some?
    requires g.skin.Some? && name in doc.allNodes && doc.allNodes[name].skin.Some?
    requires j < |g.skeletons| && g.skeletons[j].node.jointName != ""
    ensures g.skeletons[j].key in doc.allNodes[name].skin.value.jointNames
    ensures ProcessNode(imp, doc, name, g, ancestors).value.children[|g.children| + j].jointIndex
            == Int32Cast(IndexOf(doc.allNodes[name].skin.value.jointNames, g.skeletons[j].key).value)
  {
    var self := [Ancestor(name, true)] + ancestors;
    ChildrenFromLinks(imp, doc, name, g, ancestors);
    ProcessLinksEach(imp, doc, g.skeletons, self);
    var cs := ProcessLinks(imp, doc, g.children, self).value;
    var ss := ProcessLinks(imp, doc, g.skeletons, self).value;
    assert LinkYields(imp, doc, g.skeletons[j], self, ss[j]);
    assert ProcessNode(imp, doc, name, g, ancestors).value.children[|g.children| + j] == (cs + ss)[|cs| + j];
    assert NearestArmature(self) == Some(0);
    assert ArmatureJoints(doc, self) == Some(doc.allNodes[name].skin.value.jointNames);
  }

  /** A root node carrying a joint name fails: it has no parent to find an armature in. */
  lemma RootJointFails(imp: Importer, doc: Document, g: GltfNode)
    requires g.jointName != ""
    ensures ProcessNode(imp, doc, g.name, g, []).None?
  {
  }

  // ---------------------------------------------------------------------------
  // Roots, objects and the scene

  /** Whether `g` lists a node with key `id` among its children or skeletons. */
  predicate LinksTo(g: GltfNode, id: string)
  {
    (exists m :: 0 <= m < |g.children| && g.children[m].node.id == id)
    || (exists m :: 0 <= m < |g.skeletons| && g.skeletons[m].node.id == id)
  }

  /** A scene node is a root when no other scene node links to it. */
  predicate IsRoot(nodes: seq<GltfNode>, i: nat)
    requires i < |nodes|
  {
    forall k :: 0 <= k < |nodes| && k != i ==> !LinksTo(nodes[k], nodes[i].id)
  }

  /** Whether `links` holds the node with key `id`, by a scan that stops at the first hit. */
  method Contains(links: seq<Link>, id: string) returns (found: bool)
    ensures found <==> exists m :: 0 <= m < |links| && links[m].node.id == id
  {
    found := false;
    var m := 0;
    while m < |links|
      invariant m <= |links|
      invariant forall p :: 0 <= p < m ==> links[p].node.id != id
    {
      if links[m].node.id == id {
        return true;
      }
      m := m + 1;
    }
  }

  /** The root test of the scene loop: every other node's children, then its skeletons. */
  method IsRootNode(nodes: seq<GltfNode>, i: nat) returns (root: bool)
    requires i < |nodes|
    ensures root == IsRoot(nodes, i)
  {
    root := true;
    var k := 0;
    while k < |nodes|
      invariant k <= |nodes|
      invariant root ==> forall p :: 0 <= p < k && p != i ==> !LinksTo(nodes[p], nodes[i].id)
      invariant !root ==> !IsRoot(nodes, i)
    {
      if k != i {
        var inChildren := Contains(nodes[k].children, nodes[i].id);
        if inChildren {
          root := false;
        } else {
          var inSkeletons := Contains(nodes[k].skeletons, nodes[i].id);
          if inSkeletons {
            root := false;
          }
        }
        if !root {
          break;
        }
      }
      k := k + 1;
    }
  }

  /** The indices of the root nodes among the first n, in order. */
  function RootsBelow(nodes: seq<GltfNode>, n: nat): (r: seq<nat>)
    requires n <= |nodes|
    ensures forall j :: 0 <= j < |r| ==> r[j] < n
  {
    if n == 0 then []
    else if IsRoot(nodes, n - 1) then RootsBelow(nodes, n - 1) + [n - 1]
    else RootsBelow(nodes, n - 1)
  }

  /** The root scan keeps only roots among the first `n` nodes, in ascending order. */
  lemma {:induction false} RootsBelowSound(nodes: seq<GltfNode>, n: nat)
    requires n <= |nodes|
    ensures forall j :: 0 <= j < |RootsBelow(nodes, n)| ==> IsRoot(nodes, RootsBelow(nodes, n)[j])
    ensures forall j, k :: 0 <= j < k < |RootsBelow(nodes, n)| ==> RootsBelow(nodes, n)[j] < RootsBelow(nodes, n)[k]
  {
    if n > 0 {
      RootsBelowSound(nodes, n - 1);
    }
  }

  /** The root scan misses no root among the first `n` nodes. */
  lemma {:induction false} RootsBelowComplete(nodes: seq<GltfNode>, n: nat)
    requires n <= |nodes|
    ensures forall i :: 0 <= i < n && IsRoot(nodes, i) ==> i in RootsBelow(nodes, n)
  {
    if n > 0 {
      RootsBelowComplete(nodes, n - 1);
    }
  }

  function Roots(nodes: seq<GltfNode>): seq<nat>
  {
    RootsBelow(nodes, |nodes|)
  }

  /** The outcome of gltfProcessObject: failure, or the root node it set (none if no scene
      node carries the object's name). */
  datatype RootResult = RootFailed | RootFound(root: Option<Node>)

  /** A scene node processed as the root of an object: named after itself, no parent. */
  function ImportRoot(imp: Importer, doc: Document, g: GltfNode): Option<Node>
  {
    ProcessNode(imp, doc, g.name, g, [])
  }

  /** gltfProcessObject over the first n scene nodes, `importNode` standing for the processing
      of one node: every node with the object's name is imported, the last one becoming the
      root; the first failure aborts. */
  function ProcessObjectBelow(importNode: GltfNode -> Option<Node>, objectName: string, nodes: seq<GltfNode>, n: nat): (r: RootResult)
    requires n <= |nodes|
    ensures r.RootFound? && r.root.Some? ==> exists j :: 0 <= j < n && Some(r.root.value) == importNode(nodes[j])
  {
    if n == 0 then RootFound(None)
    else
      var prev := ProcessObjectBelow(importNode, objectName, nodes, n - 1);
      if prev.RootFailed? then RootFailed
      else if nodes[n - 1].name != objectName then prev
      else
        match importNode(nodes[n - 1])
        case None => RootFailed
        case Some(node) => RootFound(Some(node))
  }

  /** The object's root is the import of the last scene node carrying its name; the object
      fails exactly when one of the nodes carrying that name fails, and has no root exactly
      when no node carries that name. */
  lemma {:induction false} ProcessObjectMeaning(importNode: GltfNode -> Option<Node>, objectName: string, nodes: seq<GltfNode>, n: nat)
    requires n <= |nodes|
    ensures ProcessObjectBelow(importNode, objectName, nodes, n).RootFailed? <==>
              exists j :: 0 <= j < n && nodes[j].name == objectName && importNode(nodes[j]).None?
    ensures ProcessObjectBelow(importNode, objectName, nodes, n) == RootFound(None) <==>
              forall j :: 0 <= j < n ==> nodes[j].name != objectName
    ensures ProcessObjectBelow(importNode, objectName, nodes, n).RootFound?
            && ProcessObjectBelow(importNode, objectName, nodes, n).root.Some? ==>
              exists j :: 0 <= j < n && nodes[j].name == objectName
                && Some(ProcessObjectBelow(importNode, objectName, nodes, n).root.value) == importNode(nodes[j])
                && forall k :: j < k < n ==> nodes[k].name != objectName
  {
    if n > 0 {
      ProcessObjectMeaning(importNode, objectName, nodes, n - 1);
      var prev := ProcessObjectBelow(importNode, objectName, nodes, n - 1);
      var r := ProcessObjectBelow(importNode, objectName, nodes, n);
      if prev.RootFailed? {
        assert r.RootFailed?;
      } else if nodes[n - 1].name != objectName {
        assert r == prev;
      } else {
        match importNode(nodes[n - 1])
        case None =>
          assert r.RootFailed?;
        case Some(node) =>
          assert r == RootFound(Some(node));
          assert forall j :: 0 <= j < n - 1 && nodes[j].name == objectName ==> importNode(nodes[j]).Some?;
      }
    }
  }

  /** gltfProcessObject for the object named `objectName`. */
  function ProcessObject(imp: Importer, doc: Document, objectName: string, nodes: seq<GltfNode>): RootResult
  {
    ProcessObjectBelow(g => ImportRoot(imp, doc, g), objectName, nodes, |nodes|)
  }

  /** A root node's object gets a root node named after it. */
  lemma ObjectRootNamed(imp: Importer, doc: Document, nodes: seq<GltfNode>, i: nat)
    requires i < |nodes|
    ensures ProcessObject(imp, doc, nodes[i].name, nodes).RootFound? ==>
              ProcessObject(imp, doc, nodes[i].name, nodes).root.Some?
              && ProcessObject(imp, doc, nodes[i].name, nodes).root.value.name == nodes[i].name
  {
    var importNode := g => ImportRoot(imp, doc, g);
    ProcessObjectMeaning(importNode, nodes[i].name, nodes, |nodes|);
    var r := ProcessObject(imp, doc, nodes[i].name, nodes);
    if r.RootFound? {
      assert r.root.Some?;
      var j :| 0 <= j < |nodes| && nodes[j].name == nodes[i].name && Some(r.root.value) == importNode(nodes[j]);
      assert Some(r.root.value) == ProcessNode(imp, doc, nodes[j].name, nodes[j], []);
    }
  }

  /** The scene the import uses: the default one, else the first one, else none. */
  function SelectScene(doc: Document): (r: Option<GltfScene>)
    ensures doc.defaultScene.Some? ==> r == doc.defaultScene
    ensures doc.defaultScene.None? && |doc.scenes| > 0 ==> r == Some(doc.scenes[0])
    ensures r.None? <==> doc.defaultScene.None? && |doc.scenes| == 0
  {
    if doc.defaultScene.Some? then doc.defaultScene
    else if |doc.scenes| > 0 then Some(doc.scenes[0])
    else None
  }

  /** gltfProcessObject for each object of the scene whose nodes are `nodes`, by object name. */
  function ObjectProcessor(imp: Importer, doc: Document, nodes: seq<GltfNode>): string -> RootResult
  {
    objectName => ProcessObject(imp, doc, objectName, nodes)
  }

  /** The objects for the given root indices, in order, each named after its root node and
      identified by that node's index; `process` is gltfProcessObject for an object of that name. */
  function ObjectsFor(process: string -> RootResult, nodes: seq<GltfNode>, roots: seq<nat>): Option<seq<Object>>
    requires forall j :: 0 <= j < |roots| ==> roots[j] < |nodes|
  {
    if |roots| == 0 then Some([])
    else
      var last := roots[|roots| - 1];
      match ObjectsFor(process, nodes, roots[..|roots| - 1])
      case None => None
      case Some(prefix) =>
        match process(nodes[last].name)
        case RootFailed => None
        case RootFound(root) => Some(prefix + [Object(nodes[last].name, root, last)])
  }

  /** The object list fails iff some root's object fails; otherwise it holds, in order, one
      object per root, named after the root node and carrying its processed root. */
  lemma {:induction false} ObjectsForMeaning(process: string -> RootResult, nodes: seq<GltfNode>, roots: seq<nat>)
    requires forall j :: 0 <= j < |roots| ==> roots[j] < |nodes|
    ensures ObjectsFor(process, nodes, roots).None? <==>
              exists j :: 0 <= j < |roots| && process(nodes[roots[j]].name).RootFailed?
    ensures ObjectsFor(process, nodes, roots).Some? ==>
              var objects := ObjectsFor(process, nodes, roots).value;
              |objects| == |roots|
              && forall j :: 0 <= j < |roots| ==> objects[j] == Object(nodes[roots[j]].name, process(nodes[roots[j]].name).root, roots[j])
  {
    if |roots| > 0 {
      var init := roots[..|roots| - 1];
      ObjectsForMeaning(process, nodes, init);
      assert forall j :: 0 <= j < |init| ==> init[j] == roots[j];
    }
  }

  /** Objects made from distinct root nodes have distinct identities, ascending in node order,
      so removing one of two same-named objects never takes out the other. */
  lemma {:induction false} ObjectsForDistinct(process: string -> RootResult, nodes: seq<GltfNode>)
    requires ObjectsFor(process, nodes, Roots(nodes)).Some?
    ensures forall j, k :: 0 <= j < k < |ObjectsFor(process, nodes, Roots(nodes)).value| ==>
              ObjectsFor(process, nodes, Roots(nodes)).value[j].id < ObjectsFor(process, nodes, Roots(nodes)).value[k].id
  {
    RootsBelowSound(nodes, |nodes|);
    ObjectsForMeaning(process, nodes, Roots(nodes));
  }

  /** One step of the root scan: a non-root adds nothing, a root adds its object. */
  lemma ObjectsForNext(process: string -> RootResult, nodes: seq<GltfNode>, i: nat, objects: seq<Object>)
    requires i < |nodes|
    requires ObjectsFor(process, nodes, RootsBelow(nodes, i)) == Some(objects)
    ensures !IsRoot(nodes, i) ==> ObjectsFor(process, nodes, RootsBelow(nodes, i + 1)) == Some(objects)
    ensures IsRoot(nodes, i) && process(nodes[i].name).RootFound? ==>
              ObjectsFor(process, nodes, RootsBelow(nodes, i + 1))
              == Some(objects + [Object(nodes[i].name, process(nodes[i].name).root, i)])
  {
    var next := RootsBelow(nodes, i + 1);
    if IsRoot(nodes, i) {
      assert next[..|next| - 1] == RootsBelow(nodes, i);
    }
  }

  /** A root whose object fails makes the whole object list fail. */
  lemma ObjectsForFails(process: string -> RootResult, nodes: seq<GltfNode>, i: nat)
    requires i < |nodes| && IsRoot(nodes, i) && process(nodes[i].name).RootFailed?
    ensures ObjectsFor(process, nodes, Roots(nodes)).None?
  {
    var all := Roots(nodes);
    RootsBelowComplete(nodes, |nodes|);
    ObjectsForMeaning(process, nodes, all);
    var j :| 0 <= j < |all| && all[j] == i;
    assert process(nodes[all[j]].name).RootFailed?;
  }

  /** gltfLoad after parsing: choose the scene, then one object per root node in order. */
  method Load(imp: Importer, doc: Document) returns (scene: Option<Scene>)
    ensures SelectScene(doc).None? ==> scene.None?
    ensures SelectScene(doc).Some? ==>
              var g := SelectScene(doc).value;
              match ObjectsFor(ObjectProcessor(imp, doc, g.nodes), g.nodes, Roots(g.nodes))
              case None => scene.None?
              case Some(objects) => scene == Some(EmptyScene().(name := g.name, objects := objects))
  {
    var selected := SelectScene(doc);
    if selected.None? {
      return None;
    }
    var g := selected.value;
    var process := ObjectProcessor(imp, doc, g.nodes);
    var objects: seq<Object> := [];
    var i := 0;
    while i < |g.nodes|
      invariant i <= |g.nodes|
      invariant ObjectsFor(process, g.nodes, RootsBelow(g.nodes, i)) == Some(objects)
    {
      var root := IsRootNode(g.nodes, i);
      ObjectsForNext(process, g.nodes, i, objects);
      if root {
        var result := process(g.nodes[i].name);
        if result.RootFailed? {
          ObjectsForFails(process, g.nodes, i);
          return None;
        }
        objects := objects + [Object(g.nodes[i].name, result.root, i)];
      }
      i := i + 1;
    }
    scene := Some(EmptyScene().(name := g.name, objects := objects));
  }

  // ---------------------------------------------------------------------------
  // A small document

  function Leaf(id: string): GltfNode
  {
    GltfNode(id, id, false, [], false, Zero, false, [0.0, 0.0, 0.0, 1.0], false, One, None, "", [], [], [])
  }

  /** A scene listing a parent A and its child B yields exactly one object root, A. */
  lemma ParentIsOnlyRoot()
    ensures var b := Leaf("B");
            var a := Leaf("A").(children := [Link("B", b)]);
            Roots([a, b]) == [0]
  {
    var b := Leaf("B");
    var a := Leaf("A").(children := [Link("B", b)]);
    var nodes := [a, b];
    assert nodes[0].children[0].node.id == nodes[1].id;
    assert LinksTo(nodes[0], nodes[1].id);
    assert !IsRoot(nodes, 1);
    assert !LinksTo(nodes[1], nodes[0].id);
    assert IsRoot(nodes, 0);
    assert RootsBelow(nodes, 1) == [0];
    assert RootsBelow(nodes, 2) == RootsBelow(nodes, 1);
  }
}

=== FILE: lists.dfy ===
/** Order-preserving list helpers shared by the scene container and the materials. */
module Lists {
  import opened Wrappers

  /** Position of the first element equal to `x`, or None when `x` does not occur. */
  function IndexOf<T(==)>(xs: seq<T>, x: T): (r: Option<nat>)
    ensures r.None? <==> x !in xs
    ensures r.Some? ==> r.value < |xs| && xs[r.value] == x && x !in xs[..r.value]
  {
    if |xs| == 0 then None
    else if xs[0] == x then Some(0)
    else
      match IndexOf(xs[1..], x)
      case None => None
      case Some(i) =>
        assert xs[..i + 1] == [xs[0]] + xs[1..][..i];
        Some(i + 1)
  }

  datatype Removed<T> = Removed(found: bool, rest: seq<T>)

  /** Removal of the first occurrence of `x`; `found` reports whether there was one. */
  function RemoveFirst<T(==)>(xs: seq<T>, x: T): (r: Removed<T>)
    ensures r.found <==> x in xs
    ensures !r.found ==> r.rest == xs
    ensures r.found ==> |r.rest| == |xs| - 1 && multiset(r.rest) == multiset(xs) - multiset{x}
    ensures r.found ==> exists i :: 0 <= i < |xs| && xs[i] == x && x !in xs[..i] && r.rest == xs[..i] + xs[i + 1..]
  {
    match IndexOf(xs, x)
    case None => Removed(false, xs)
    case Some(i) =>
      assert xs == xs[..i] + [x] + xs[i + 1..];
      Removed(true, xs[..i] + xs[i + 1..])
  }

  /** Appending an element that is not yet present and removing it again restores the list. */
  lemma AddThenRemove<T>(xs: seq<T>, x: T)
    requires x !in xs
    ensures RemoveFirst(xs + [x], x) == Removed(true, xs)
  {
    var ys := xs + [x];
    var i := IndexOf(ys, x).value;
    assert forall j :: 0 <= j < |xs| ==> ys[j] == xs[j];
    assert i == |xs|;
    assert ys[..i] == xs;
  }
}

=== FILE: scene.dfy ===
/** The scene container: ordered object, camera and light lists with first-match lookup,
    the (offset, step, limit) partition of the object list that drives every traversal,
    the visitor-chain protocol, all-or-nothing cloning and ordered destruction. */
module Scene {
  import opened Wrappers
  import opened Lists
  import opened SceneGraph

  // ---------------------------------------------------------------------------
  // Lookup by name

  /** The scan behind findObject / findCamera / findLight, from position i onwards. */
  function FirstNamedFrom<T>(xs: seq<T>, nameOf: T -> string, name: string, i: nat): (r: Option<nat>)
    requires i <= |xs|
    ensures r.None? <==> forall k :: i <= k < |xs| ==> nameOf(xs[k]) != name
    ensures r.Some? ==> i <= r.value < |xs| && nameOf(xs[r.value]) == name
    ensures r.Some? ==> forall k :: i <= k < r.value ==> nameOf(xs[k]) != name
    decreases |xs| - i
  {
    if i == |xs| then None
    else if nameOf(xs[i]) == name then Some(i)
    else FirstNamedFrom(xs, nameOf, name, i + 1)
  }

  function ObjectName(o: Object): string { o.name }
  function CameraName(c: Camera): string { c.name }
  function LightName(l: Light): string { l.name }

  /** findObject: the first object in list order carrying `name`, else nothing. */
  function FindObject(s: Scene, name: string): (r: Option<Object>)
    ensures r.None? <==> forall k :: 0 <= k < |s.objects| ==> s.objects[k].name != name
    ensures r.Some? ==> exists i :: 0 <= i < |s.objects| && s.objects[i] == r.value && r.value.name == name
                          && forall k :: 0 <= k < i ==> s.objects[k].name != name
  {
    match FirstNamedFrom(s.objects, ObjectName, name, 0)
    case None => None
    case Some(i) => Some(s.objects[i])
  }

  /** findCamera: the first camera in list order carrying `name`, else nothing. */
  function FindCamera(s: Scene, name: string): (r: Option<Camera>)
    ensures r.None? <==> forall k :: 0 <= k < |s.cameras| ==> s.cameras[k].name != name
    ensures r.Some? ==> exists i :: 0 <= i < |s.cameras| && s.cameras[i] == r.value && r.value.name == name
                          && forall k :: 0 <= k < i ==> s.cameras[k].name != name
  {
    match FirstNamedFrom(s.cameras, CameraName, name, 0)
    case None => None
    case Some(i) => Some(s.cameras[i])
  }

  /** findLight: the first light in list order carrying `name`, else nothing. */
  function FindLight(s: Scene, name: string): (r: Option<Light>)
    ensures r.None? <==> forall k :: 0 <= k < |s.lights| ==> s.lights[k].name != name
    ensures r.Some? ==> exists i :: 0 <= i < |s.lights| && s.lights[i] == r.value && r.value.name == name
                          && forall k :: 0 <= k < i ==> s.lights[k].name != name
  {
    match FirstNamedFrom(s.lights, LightName, name, 0)
    case None => None
    case Some(i) => Some(s.lights[i])
  }

  // ---------------------------------------------------------------------------
  // Adding and removing

  /** addObject appends; nothing else in the scene changes. */
  function AddObject(s: Scene, o: Object): (r: Scene)
    ensures r.objects == s.objects + [o]
    ensures r.cameras == s.cameras && r.lights == s.lights && r.name == s.name
  {
    s.(objects := s.objects + [o])
  }

  function AddCamera(s: Scene, c: Camera): (r: Scene)
    ensures r.cameras == s.cameras + [c]
    ensures r.objects == s.objects && r.lights == s.lights && r.name == s.name
  {
    s.(cameras := s.cameras + [c])
  }

  function AddLight(s: Scene, l: Light): (r: Scene)
    ensures r.lights == s.lights + [l]
    ensures r.objects == s.objects && r.cameras == s.cameras && r.name == s.name
  {
    s.(lights := s.lights + [l])
  }

  /** Appending never hides an earlier match: lookup after addObject finds the old first
      match if there was one, otherwise the new object when its name matches. */
  lemma FindAfterAdd(s: Scene, o: Object, name: string)
    ensures FindObject(AddObject(s, o), name) ==
      (if FindObject(s, name).Some? then FindObject(s, name)
       else if o.name == name then Some(o) else None)
  {
    FirstNamedFromSnoc(s.objects, ObjectName, name, 0, o);
    assert (s.objects + [o])[|s.objects|] == o;
  }

  /** Appending to the list keeps an earlier first match and only otherwise can match the new element. */
  lemma {:induction false} FirstNamedFromSnoc<T>(xs: seq<T>, nameOf: T -> string, name: string, i: nat, x: T)
    requires i <= |xs|
    ensures FirstNamedFrom(xs + [x], nameOf, name, i) ==
      (if FirstNamedFrom(xs, nameOf, name, i).Some? then FirstNamedFrom(xs, nameOf, name, i)
       else if nameOf(x) == name then Some(|xs|) else None)
    decreases |xs| - i
  {
    if i < |xs| {
      assert (xs + [x])[i] == xs[i];
      if nameOf(xs[i]) != name {
        FirstNamedFromSnoc(xs, nameOf, name, i + 1, x);
      }
    } else {
      assert (xs + [x])[i] == x;
    }
  }

  datatype RemovedFrom = RemovedFrom(found: bool, scene: Scene)

  /** removeObject: the first entry equal to this object, identity included, leaves the list. */
  function RemoveObject(s: Scene, o: Object): (r: RemovedFrom)
    ensures r.found <==> o in s.objects
    ensures !r.found ==> r.scene == s
    ensures r.found ==> |r.scene.objects| == |s.objects| - 1
    // The first occurrence leaves; the others keep their order.
    ensures r.found ==> exists i :: 0 <= i < |s.objects| && s.objects[i] == o && o !in s.objects[..i]
                                    && r.scene.objects == s.objects[..i] + s.objects[i + 1..]
    ensures r.scene.cameras == s.cameras && r.scene.lights == s.lights && r.scene.name == s.name
  {
    var rm := RemoveFirst(s.objects, o);
    RemovedFrom(rm.found, s.(objects := rm.rest))
  }

  function RemoveCamera(s: Scene, c: Camera): (r: RemovedFrom)
    ensures r.found <==> c in s.cameras
    ensures !r.found ==> r.scene == s
    ensures r.found ==> |r.scene.cameras| == |s.cameras| - 1
    // The first occurrence leaves; the others keep their order.
    ensures r.found ==> exists i :: 0 <= i < |s.cameras| && s.cameras[i] == c && c !in s.cameras[..i]
                                    && r.scene.cameras == s.cameras[..i] + s.cameras[i + 1..]
    ensures r.scene.objects == s.objects && r.scene.lights == s.lights && r.scene.name == s.name
  {
    var rm := RemoveFirst(s.cameras, c);
    RemovedFrom(rm.found, s.(cameras := rm.rest))
  }

  function RemoveLight(s: Scene, l: Light): (r: RemovedFrom)
    ensures r.found <==> l in s.lights
    ensures !r.found ==> r.scene == s
    ensures r.found ==> |r.scene.lights| == |s.lights| - 1
    // The first occurrence leaves; the others keep their order.
    ensures r.found ==> exists i :: 0 <= i < |s.lights| && s.lights[i] == l && l !in s.lights[..i]
                                    && r.scene.lights == s.lights[..i] + s.lights[i + 1..]
    ensures r.scene.objects == s.objects && r.scene.cameras == s.cameras && r.scene.name == s.name
  {
    var rm := RemoveFirst(s.lights, l);
    RemovedFrom(rm.found, s.(lights := rm.rest))
  }

  /** Objects are told apart by identity: when no other entry shares the identity of the
      object at position i, removing that object takes out exactly position i, even if another
      entry has the same name and root. */
  lemma {:induction false} RemoveObjectAt(s: Scene, i: nat)
    requires i < |s.objects|
    requires forall k :: 0 <= k < |s.objects| && k != i ==> s.objects[k].id != s.objects[i].id
    ensures RemoveObject(s, s.objects[i]).found
    ensures RemoveObject(s, s.objects[i]).scene.objects == s.objects[..i] + s.objects[i + 1..]
  {
    var o := s.objects[i];
    var r := RemoveObject(s, o);
    var i' :| 0 <= i' < |s.objects| && s.objects[i'] == o && o !in s.objects[..i']
              && r.scene.objects == s.objects[..i'] + s.objects[i' + 1..];
    assert s.objects[i'].id == o.id;
  }

  /** Removing an object just added (and not present before) gives back the scene. */
  lemma AddThenRemoveObject(s: Scene, o: Object)
    requires o !in s.objects
    ensures RemoveObject(AddObject(s, o), o) == RemovedFrom(true, s)
  {
    AddThenRemove(s.objects, o);
  }

  /** Removing a camera just added (and not present before) gives back the scene. */
  lemma AddThenRemoveCamera(s: Scene, c: Camera)
    requires c !in s.cameras
    ensures RemoveCamera(AddCamera(s, c), c) == RemovedFrom(true, s)
  {
    AddThenRemove(s.cameras, c);
  }

  /** Removing a light just added (and not present before) gives back the scene. */
  lemma AddThenRemoveLight(s: Scene, l: Light)
    requires l !in s.lights
    ensures RemoveLight(AddLight(s, l), l) == RemovedFrom(true, s)
  {
    AddThenRemove(s.lights, l);
  }

  // ---------------------------------------------------------------------------
  // Partition of the object list

  /** glm::min(allObjects.size(), objectLimit). */
  function Bound(count: nat, limit: nat): nat
  {
    if count < limit then count else limit
  }

  /** Index i belongs to the partition (offset, step) below `bound`. */
  predicate InPartition(i: nat, offset: nat, step: nat, bound: nat)
  {
    step > 0 && offset <= i < bound && (i - offset) % step == 0
  }

  /** The indices the loop `for (i = offset; i < bound; i += step)` reaches. */
  function Selected(offset: nat, step: nat, bound: nat): seq<nat>
    decreases if offset < bound then bound - offset else 0
  {
    if step == 0 || offset >= bound then [] else [offset] + Selected(offset + step, step, bound)
  }

  /** One loop step: the visit of index i followed by the rest of the walk. */
  lemma SelectedStep(visited: seq<nat>, i: nat, step: nat, bound: nat)
    requires step > 0 && i < bound
    ensures (visited + [i]) + Selected(i + step, step, bound) == visited + Selected(i, step, bound)
  {
    assert Selected(i, step, bound) == [i] + Selected(i + step, step, bound);
  }

  predicate Increasing(xs: seq<nat>)
  {
    forall j, k :: 0 <= j < k < |xs| ==> xs[j] < xs[k]
  }

  lemma MulBounds(step: nat, d: int)
    ensures d >= 1 ==> step * d >= step
    ensures d <= -1 ==> step * d <= 0 - step
  {
    if d >= 1 {
      assert step * d == step * (d - 1) + step;
    } else if d <= -1 {
      assert step * d == step * (d + 1) - step;
    }
  }

  /** Euclidean division is unique: a quotient and a remainder in range are the ones `/` and `%` give. */
  lemma DivModUnique(a: int, step: nat, q: int, r: int)
    requires step > 0 && 0 <= r < step && a == step * q + r
    ensures a % step == r && a / step == q
  {
    var q0 := a / step;
    var r0 := a % step;
    assert a == step * q0 + r0;
    assert step * q - step * q0 == step * (q - q0);
    MulBounds(step, q - q0);
  }

  lemma ModShift(a: nat, step: nat)
    requires step > 0
    ensures (a + step) % step == a % step
  {
    assert a == step * (a / step) + a % step;
    assert a + step == step * (a / step + 1) + a % step;
    DivModUnique(a + step, step, a / step + 1, a % step);
  }

  /** Membership in the visited list is exactly the partition predicate. */
  lemma {:induction false} SelectedMembers(offset: nat, step: nat, bound: nat)
    ensures forall i :: i in Selected(offset, step, bound) <==> InPartition(i, offset, step, bound)
    decreases if offset < bound then bound - offset else 0
  {
    if step > 0 && offset < bound {
      SelectedMembers(offset + step, step, bound);
      forall i: nat | InPartition(i, offset, step, bound) && i != offset
        ensures InPartition(i, offset + step, step, bound)
      {
        if i - offset < step {
          DivModUnique(i - offset, step, 0, i - offset);
        }
        ModShift(i - offset - step, step);
      }
      forall i: nat | InPartition(i, offset + step, step, bound)
        ensures InPartition(i, offset, step, bound)
      {
        ModShift(i - offset - step, step);
      }
    }
  }

  /** The visited indices ascend strictly, so none is visited twice. */
  lemma {:induction false} SelectedIncreasing(offset: nat, step: nat, bound: nat)
    ensures Increasing(Selected(offset, step, bound))
    decreases if offset < bound then bound - offset else 0
  {
    if step > 0 && offset < bound {
      SelectedIncreasing(offset + step, step, bound);
      SelectedMembers(offset + step, step, bound);
      var rest := Selected(offset + step, step, bound);
      assert forall k :: 0 <= k < |rest| ==> rest[k] in rest;
    }
  }

  /** The k-th visited index is offset + k * step. */
  lemma {:induction false} SelectedProgression(offset: nat, step: nat, bound: nat)
    ensures forall k :: 0 <= k < |Selected(offset, step, bound)| ==> Selected(offset, step, bound)[k] == offset + k * step
    decreases if offset < bound then bound - offset else 0
  {
    if step > 0 && offset < bound {
      SelectedProgression(offset + step, step, bound);
      var all := Selected(offset, step, bound);
      forall k | 1 <= k < |all|
        ensures all[k] == offset + k * step
      {
        assert all[k] == Selected(offset + step, step, bound)[k - 1];
        assert (k - 1) * step + step == k * step;
      }
    }
  }

  /** Workers with offsets 0 .. step-1 and a common step cover every index below the
      bound exactly once: index i belongs to offset i % step and to no other. */
  lemma PartitionsCoverOnce(i: nat, step: nat, bound: nat)
    requires step > 0 && i < bound
    ensures InPartition(i, i % step, step, bound)
    ensures forall o :: 0 <= o < step && InPartition(i, o, step, bound) ==> o == i % step
  {
    assert i == step * (i / step) + i % step;
    DivModUnique(i - i % step, step, i / step, 0);
    forall o | 0 <= o < step && InPartition(i, o, step, bound)
      ensures o == i % step
    {
      var q := (i - o) / step;
      assert i - o == step * q + (i - o) % step;
      DivModUnique(i, step, q, o);
    }
  }

  /** The partition loop as the source writes it; `step == 0` selects nothing. */
  method Partition(count: nat, offset: nat, step: nat, limit: nat) returns (visited: seq<nat>)
    ensures step == 0 ==> visited == []
    ensures visited == Selected(offset, step, Bound(count, limit))
    ensures forall i :: i in visited <==> InPartition(i, offset, step, Bound(count, limit))
    ensures Increasing(visited)
    ensures forall k :: 0 <= k < |visited| ==> visited[k] == offset + k * step
  {
    var bound := Bound(count, limit);
    SelectedMembers(offset, step, bound);
    SelectedIncreasing(offset, step, bound);
    SelectedProgression(offset, step, bound);
    if step == 0 {
      return [];
    }
    visited := [];
    var i := offset;
    while i < bound
      invariant visited + Selected(i, step, bound) == Selected(offset, step, bound)
      decreases bound - i
    {
      SelectedStep(visited, i, step, bound);
      visited := visited + [i];
      i := i + step;
    }
  }

  /** updateTransformRecursive: the object indices whose subtrees get updated. */
  method UpdateTransformRecursive(s: Scene, offset: nat, step: nat, limit: nat) returns (updated: seq<nat>)
    ensures step == 0 ==> updated == []
    ensures forall i :: i in updated <==> InPartition(i, offset, step, Bound(|s.objects|, limit))
    ensures forall i :: i in updated ==> i < |s.objects|
    ensures Increasing(updated)
  {
    updated := Partition(|s.objects|, offset, step, limit);
  }

  // ---------------------------------------------------------------------------
  // Visitor chain

  /** What a traversal does, in order: a visitor's scene-level hook, or a visit of one
      object's subtree started with a given visitor of the chain. */
  datatype Event = SceneHook(visitor: nat) | ObjectVisit(object: nat, visitor: nat)

  function HookEvents(n: nat): (r: seq<Event>)
    ensures |r| == n && forall j :: 0 <= j < n ==> r[j] == SceneHook(j)
  {
    seq(n, j requires 0 <= j < n => SceneHook(j))
  }

  function ObjectEvents(indices: seq<nat>): (r: seq<Event>)
    ensures |r| == |indices| && forall j :: 0 <= j < |indices| ==> r[j] == ObjectVisit(indices[j], 0)
  {
    seq(|indices|, j requires 0 <= j < |indices| => ObjectVisit(indices[j], 0))
  }

  /** visitRecursive. `hooks[v]` is the answer of the v-th visitor's scene-level hook; the
      chain's head is visitor 0 and the source requires a non-null head. */
  method VisitRecursive(s: Scene, hooks: seq<bool>, offset: nat, step: nat, limit: nat) returns (trace: seq<Event>)
    requires |hooks| > 0
    // The first refusing hook ends the traversal before any object is visited.
    ensures forall k :: 0 <= k < |hooks| && !hooks[k] && (forall j :: 0 <= j < k ==> hooks[j]) ==>
              trace == HookEvents(k + 1)
    // Otherwise every hook runs, then the selected objects are visited in ascending order,
    // each started with the head of the chain.
    ensures (forall j :: 0 <= j < |hooks| ==> hooks[j]) ==>
              trace == HookEvents(|hooks|) + ObjectEvents(Selected(offset, step, Bound(|s.objects|, limit)))
  {
    trace := [];
    var v := 0;
    while v < |hooks|
      invariant v <= |hooks|
      invariant trace == HookEvents(v)
      invariant forall j :: 0 <= j < v ==> hooks[j]
    {
      trace := trace + [SceneHook(v)];
      if !hooks[v] {
        return;
      }
      v := v + 1;
    }
    if step == 0 {
      return;
    }
    var bound := Bound(|s.objects|, limit);
    var prefix := trace;
    var visited: seq<nat> := [];
    var i := offset;
    while i < bound
      invariant visited + Selected(i, step, bound) == Selected(offset, step, bound)
      invariant trace == prefix + ObjectEvents(visited)
      decreases bound - i
    {
      SelectedStep(visited, i, step, bound);
      assert ObjectEvents(visited + [i]) == ObjectEvents(visited) + [ObjectVisit(i, 0)];
      trace := trace + [ObjectVisit(i, 0)];
      visited := visited + [i];
      i := i + step;
    }
  }

  // ---------------------------------------------------------------------------
  // Cloning

  datatype ListClone<T> = ListClone(failed: bool, items: seq<T>)

  /** One list loop of the copy constructor from position i, `acc` holding the clones made
      so far: the first failing sub-clone clears the list and stops. */
  function CloneFrom<T>(xs: seq<T>, cloneOf: T -> Option<T>, i: nat, acc: seq<T>): (r: ListClone<T>)
    requires i <= |xs| && |acc| == i
    requires forall j :: 0 <= j < i ==> cloneOf(xs[j]) == Some(acc[j])
    ensures r.failed <==> exists j :: i <= j < |xs| && cloneOf(xs[j]).None?
    ensures r.failed ==> r.items == []
    ensures !r.failed ==> |r.items| == |xs| && forall j :: 0 <= j < |xs| ==> cloneOf(xs[j]) == Some(r.items[j])
    decreases |xs| - i
  {
    if i == |xs| then ListClone(false, acc)
    else
      match cloneOf(xs[i])
      case None => ListClone(true, [])
      case Some(c) => CloneFrom(xs, cloneOf, i + 1, acc + [c])
  }

  function CloneList<T>(xs: seq<T>, cloneOf: T -> Option<T>): (r: ListClone<T>)
    ensures r.failed <==> exists j :: 0 <= j < |xs| && cloneOf(xs[j]).None?
    ensures r.failed ==> r.items == []
    ensures !r.failed ==> |r.items| == |xs| && forall j :: 0 <= j < |xs| ==> cloneOf(xs[j]) == Some(r.items[j])
  {
    CloneFrom(xs, cloneOf, 0, [])
  }

  /** The external clone operations of objects, cameras and lights (None: the element was
      null or its own clone failed). */
  datatype Cloners = Cloners(
    cloneObject: Object -> Option<Object>,
    cloneCamera: Camera -> Option<Camera>,
    cloneLight: Light -> Option<Light>)

  /** The copy constructor: each list is cloned element by element, a failure empties that
      list and the name; the four environment textures are shared, not copied. */
  function CopyScene(s: Scene, cl: Cloners): (r: Scene)
    ensures r.environment == s.environment && r.diffuseEnvironment == s.diffuseEnvironment
    ensures r.specularEnvironment == s.specularEnvironment && r.lut == s.lut
    ensures r.objects == CloneList(s.objects, cl.cloneObject).items
    ensures r.cameras == CloneList(s.cameras, cl.cloneCamera).items
    ensures r.lights == CloneList(s.lights, cl.cloneLight).items
  {
    var objects := CloneList(s.objects, cl.cloneObject);
    var cameras := CloneList(s.cameras, cl.cloneCamera);
    var lights := CloneList(s.lights, cl.cloneLight);
    var name := if objects.failed || cameras.failed || lights.failed then "" else s.name + "_clone";
    Scene(name, objects.items, cameras.items, lights.items,
          s.environment, s.diffuseEnvironment, s.specularEnvironment, s.lut)
  }

  /** clone: all or nothing. */
  function Clone(s: Scene, cl: Cloners): (r: Option<Scene>)
    ensures r.Some? <==>
      (forall j :: 0 <= j < |s.objects| ==> cl.cloneObject(s.objects[j]).Some?) &&
      (forall j :: 0 <= j < |s.cameras| ==> cl.cloneCamera(s.cameras[j]).Some?) &&
      (forall j :: 0 <= j < |s.lights| ==> cl.cloneLight(s.lights[j]).Some?)
    ensures r.Some? ==> r.value.name == s.name + "_clone"
    ensures r.Some? ==> |r.value.objects| == |s.objects| && |r.value.cameras| == |s.cameras| && |r.value.lights| == |s.lights|
    ensures r.Some? ==> forall j :: 0 <= j < |s.objects| ==> cl.cloneObject(s.objects[j]) == Some(r.value.objects[j])
    ensures r.Some? ==> forall j :: 0 <= j < |s.cameras| ==> cl.cloneCamera(s.cameras[j]) == Some(r.value.cameras[j])
    ensures r.Some? ==> forall j :: 0 <= j < |s.lights| ==> cl.cloneLight(s.lights[j]) == Some(r.value.lights[j])
    ensures r.Some? ==> r.value.environment == s.environment && r.value.diffuseEnvironment == s.diffuseEnvironment
                        && r.value.specularEnvironment == s.specularEnvironment && r.value.lut == s.lut
  {
    var c := CopyScene(s, cl);
    if |c.objects| != |s.objects| then None
    else if |c.cameras| != |s.cameras| then None
    else if |c.lights| != |s.lights| then None
    else Some(c)
  }

  // ---------------------------------------------------------------------------
  // Destruction

  datatype Release = DestroyTexture(texture: Texture) | DestroyObject(object: Object)

  datatype Destroyed = Destroyed(scene: Scene, releases: seq<Release>)

  function ReleaseIfPresent(t: Option<Texture>): (r: seq<Release>)
    ensures |r| == (if t.Some? then 1 else 0)
    ensures t.Some? ==> r[0] == DestroyTexture(t.value)
  {
    if t.Some? then [DestroyTexture(t.value)] else []
  }

  /** destroy: the LUT, specular, diffuse and environment textures (those present, in that
      order), then every object in list order; afterwards all lists are empty. */
  function Destroy(s: Scene): (r: Destroyed)
    ensures r.scene.objects == [] && r.scene.cameras == [] && r.scene.lights == []
    ensures r.scene.lut.None? && r.scene.specularEnvironment.None?
    ensures r.scene.diffuseEnvironment.None? && r.scene.environment.None?
    ensures r.scene.name == s.name
    ensures var textures := ReleaseIfPresent(s.lut) + ReleaseIfPresent(s.specularEnvironment)
                            + ReleaseIfPresent(s.diffuseEnvironment) + ReleaseIfPresent(s.environment);
            |r.releases| == |textures| + |s.objects|
            && r.releases[..|textures|] == textures
            && forall i :: 0 <= i < |s.objects| ==> r.releases[|textures| + i] == DestroyObject(s.objects[i])
  {
    var textures := ReleaseIfPresent(s.lut) + ReleaseIfPresent(s.specularEnvironment)
                    + ReleaseIfPresent(s.diffuseEnvironment) + ReleaseIfPresent(s.environment);
    var objects := seq(|s.objects|, i requires 0 <= i < |s.objects| => DestroyObject(s.objects[i]));
    Destroyed(s.(objects := [], cameras := [], lights := [],
                 environment := None, diffuseEnvironment := None, specularEnvironment := None, lut := None),
              textures + objects)
  }

  /** The destructor calls destroy again: the second call releases nothing. */
  lemma DestroyTwice(s: Scene)
    ensures Destroy(Destroy(s).scene) == Destroyed(Destroy(s).scene, [])
  {
  }
}

=== FILE: scene_graph.dfy ===
/** The scene-graph entities: nodes with their meshes and children, objects owning one
    root node, and the scene holding objects, cameras, lights and environment textures. */
module SceneGraph {
  import opened Wrappers
  import opened Vectors
  import opened Descriptors

  /** Euler rotation order of a node. The importer always selects XYZ; the other orders of
      the engine are not distinguished here. */
  datatype RotationMode = EulerXYZ | OtherEuler

  /** The six Vulkan primitive topologies a sub-mesh can carry. */
  datatype Topology = PointList | LineList | LineStrip | TriangleList | TriangleStrip | TriangleFan

  datatype MaterialKind = Phong | BSDF

  /** The part of a material the descriptor-set visitor reads: its own write records
      (the base class's writeDescriptorSets array). */
  datatype Material = Material(kind: MaterialKind, name: string, writes: seq<Write>)

  /** Counts are int because the importer stores them through an int32_t cast. */
  datatype SubMesh = SubMesh(
    name: string,
    numberVertices: int,
    numberIndices: int,
    vertexOffset: nat,
    topology: Topology,
    material: Option<Material>)

  datatype Mesh = Mesh(name: string, subMeshes: seq<SubMesh>)

  /** A transform node. The parent back-reference is not stored: operations that need the
      ancestors receive them as a parameter. `jointIndex` is -1 for a node that is no joint. */
  datatype Node = Node(
    name: string,
    rotationMode: RotationMode,
    translate: Vec3,
    rotate: Vec3,
    scale: Vec3,
    jointIndex: int,
    armature: bool,
    meshes: seq<Mesh>,
    children: seq<Node>,
    transformWrite: Write,
    jointWrite: Write)

  /** A node as the scene factory hands it out, before the importer fills it in. */
  function NewNode(name: string): (n: Node)
    ensures n.name == name && n.meshes == [] && n.children == []
    ensures n.translate == Zero && n.rotate == Zero && n.scale == One
    ensures n.jointIndex == -1 && !n.armature
  {
    Node(name, OtherEuler, Zero, Zero, One, -1, false, [], [], NoWrite, NoWrite)
  }

  /** An object is a shared instance: `id` stands for its identity, so two objects with the
      same name and root are still told apart. */
  datatype Object = Object(name: string, root: Option<Node>, id: nat)

  /** Cameras and lights only matter by name and identity here. */
  datatype Camera = Camera(name: string, id: nat)
  datatype Light = Light(name: string, id: nat)

  /** A shared texture object (image, view and sampler). */
  datatype Texture = Texture(id: nat)

  datatype Scene = Scene(
    name: string,
    objects: seq<Object>,
    cameras: seq<Camera>,
    lights: seq<Light>,
    environment: Option<Texture>,
    diffuseEnvironment: Option<Texture>,
    specularEnvironment: Option<Texture>,
    lut: Option<Texture>)

  /** A default-constructed scene: no name, empty lists, no textures. */
  function EmptyScene(): (s: Scene)
    ensures s.name == "" && s.objects == [] && s.cameras == [] && s.lights == []
    ensures s.environment.None? && s.diffuseEnvironment.None? && s.specularEnvironment.None? && s.lut.None?
  {
    Scene("", [], [], [], None, None, None, None)
  }
}

=== FILE: update_descriptor_sets.dfy ===
/** The descriptor-set update visitor: a caller-owned template of write records is
    patched with each node's transform and bone-transform writes and with each material's
    own writes, and the valid entries are sent, retargeted to the per-node set of the
    material, in one batched update per material visit. */
module UpdateDescriptorSets {
  import opened Wrappers
  import opened Descriptors
  import opened SceneGraph

  /** The engine's binding slots of the transform and bone-transform uniform buffers. */
  datatype Bindings = Bindings(transform: nat, boneTransform: nat)

  /** createDescriptorSetsByName of a material for a node name, reduced to the handle of the
      first set; None when no set can be obtained. The cache behind it is not modelled. */
  type SetLookup = (Material, string) -> Option<nat>

  /** The visitor's state: the template array it patches in place, the name of the node
      being visited, and the batched updates issued so far. */
  datatype Visitor = Visitor(template: seq<Write>, nodeName: string, updates: seq<Update>)

  /** The constructor: it keeps the caller's template and starts with an empty node name. */
  function New(template: seq<Write>): (v: Visitor)
    ensures v.template == template && v.nodeName == "" && v.updates == []
  {
    Visitor(template, "", [])
  }

  /** The return of a hook: the new visitor state and whether the generic driver should
      descend into meshes and children by itself. */
  datatype Hooked = Hooked(visitor: Visitor, descend: bool)

  // ---------------------------------------------------------------------------
  // Node hook: transform and bone-transform writes

  /** The node's transform write is usable when it is valid and bound at the transform slot. */
  predicate TransformUsable(node: Node, b: Bindings)
  {
    node.transformWrite.valid && node.transformWrite.binding == b.transform
  }

  predicate JointUsable(node: Node, b: Bindings)
  {
    node.jointWrite.valid && node.jointWrite.binding == b.boneTransform
  }

  /** One iteration of the node hook's loop over the template. */
  function OverrideNodeEntry(e: Write, node: Node, b: Bindings): Write
  {
    var e1 := if TransformUsable(node, b) && e.binding == b.transform then node.transformWrite else e;
    if JointUsable(node, b) && e1.binding == b.boneTransform then node.jointWrite else e1
  }

  function OverrideNode(template: seq<Write>, node: Node, b: Bindings): (r: seq<Write>)
    ensures |r| == |template|
    // Entries at neither slot are untouched.
    ensures forall i :: 0 <= i < |r| && template[i].binding != b.transform && template[i].binding != b.boneTransform ==>
              r[i] == template[i]
    // With distinct slots: an entry at the transform slot becomes the node's transform write
    // exactly when that write is usable, and likewise for the bone-transform slot.
    ensures b.transform != b.boneTransform ==>
              forall i :: 0 <= i < |r| && template[i].binding == b.transform ==>
                r[i] == (if TransformUsable(node, b) then node.transformWrite else template[i])
    ensures b.transform != b.boneTransform ==>
              forall i :: 0 <= i < |r| && template[i].binding == b.boneTransform ==>
                r[i] == (if JointUsable(node, b) then node.jointWrite else template[i])
  {
    seq(|template|, i requires 0 <= i < |template| => OverrideNodeEntry(template[i], node, b))
  }

  // ---------------------------------------------------------------------------
  // Material merge

  /** The last valid material write bound at `binding`: the inner loop of updateMaterial
      overwrites the entry at every match, so the last match wins. */
  function LastValidAt(writes: seq<Write>, binding: nat): (r: Option<nat>)
    ensures r.None? <==> forall k :: 0 <= k < |writes| ==> !(writes[k].valid && writes[k].binding == binding)
    ensures r.Some? ==> r.value < |writes| && writes[r.value].valid && writes[r.value].binding == binding
    ensures r.Some? ==> forall k :: r.value < k < |writes| ==> !(writes[k].valid && writes[k].binding == binding)
  {
    if |writes| == 0 then None
    else
      var last := writes[|writes| - 1];
      if last.valid && last.binding == binding then Some(|writes| - 1)
      else LastValidAt(writes[..|writes| - 1], binding)
  }

  /** A template entry after the material's writes have been applied to it. */
  function OverrideByMaterial(e: Write, writes: seq<Write>): (r: Write)
    ensures r.binding == e.binding
    ensures r == e || r in writes
  {
    match LastValidAt(writes, e.binding)
    case None => e
    case Some(k) => writes[k]
  }

  function MergedTemplate(template: seq<Write>, writes: seq<Write>): (r: seq<Write>)
    ensures |r| == |template|
    ensures forall i :: 0 <= i < |r| ==> r[i] == OverrideByMaterial(template[i], writes)
  {
    seq(|template|, i requires 0 <= i < |template| => OverrideByMaterial(template[i], writes))
  }

  /** A write aimed at the set `target` instead of its own. */
  function Retarget(w: Write, target: nat): (r: Write)
    ensures r.dstSet == target
    ensures r.valid == w.valid && r.binding == w.binding && r.count == w.count && r.payload == w.payload
  {
    w.(dstSet := target)
  }

  /** The valid entries, in order, each retargeted to `target`. */
  function Gathered(ts: seq<Write>, target: nat): (r: seq<Write>)
    ensures |r| <= |ts|
    ensures forall j :: 0 <= j < |r| ==> r[j].valid && r[j].dstSet == target
  {
    if |ts| == 0 then []
    else
      var last := ts[|ts| - 1];
      Gathered(ts[..|ts| - 1], target) + (if last.valid then [Retarget(last, target)] else [])
  }

  /** The batch holds exactly the valid template entries, retargeted: each batched write
      comes from a valid entry, and every valid entry is batched. */
  lemma {:induction false} GatheredMeaning(ts: seq<Write>, target: nat)
    ensures forall j :: 0 <= j < |Gathered(ts, target)| ==>
              exists i :: 0 <= i < |ts| && ts[i].valid && Gathered(ts, target)[j] == Retarget(ts[i], target)
    ensures forall i :: 0 <= i < |ts| && ts[i].valid ==> Retarget(ts[i], target) in Gathered(ts, target)
  {
    if |ts| > 0 {
      var init := ts[..|ts| - 1];
      var g := Gathered(init, target);
      var r := Gathered(ts, target);
      GatheredMeaning(init, target);
      assert forall i :: 0 <= i < |init| ==> init[i] == ts[i];
      forall j | 0 <= j < |r|
        ensures exists i :: 0 <= i < |ts| && ts[i].valid && r[j] == Retarget(ts[i], target)
      {
        if j < |g| {
          assert r[j] == g[j];
          assert exists i :: 0 <= i < |init| && init[i].valid && g[j] == Retarget(init[i], target);
          var i :| 0 <= i < |init| && init[i].valid && g[j] == Retarget(init[i], target);
          assert ts[i] == init[i];
        } else {
          assert r[j] == Retarget(ts[|ts| - 1], target);
        }
      }
      assert forall j :: 0 <= j < |Gathered(ts, target)| ==>
              exists i :: 0 <= i < |ts| && ts[i].valid && Gathered(ts, target)[j] == Retarget(ts[i], target);
      forall i | 0 <= i < |ts| && ts[i].valid
        ensures Retarget(ts[i], target) in r
      {
        if i < |init| {
          assert Retarget(init[i], target) in g;
        }
      }
    } else {
      assert |Gathered(ts, target)| == 0;
    }
  }

  lemma LastValidAtSnoc(writes: seq<Write>, k: nat, binding: nat)
    requires k < |writes|
    ensures LastValidAt(writes[..k + 1], binding) ==
      (if writes[k].valid && writes[k].binding == binding then Some(k) else LastValidAt(writes[..k], binding))
  {
    assert writes[..k + 1][..k] == writes[..k];
  }

  /** The inner loop of updateMaterial: every valid material write bound where the entry
      is bound replaces it, so the last such write is the one that stays. */
  method OverrideEntry(e: Write, writes: seq<Write>) returns (r: Write)
    ensures r == OverrideByMaterial(e, writes)
  {
    r := e;
    var k := 0;
    while k < |writes|
      invariant k <= |writes|
      invariant r == OverrideByMaterial(e, writes[..k])
    {
      LastValidAtSnoc(writes, k, e.binding);
      if r.binding == writes[k].binding && writes[k].valid {
        r := writes[k];
      }
      k := k + 1;
    }
    assert writes[..|writes|] == writes;
  }

  /** updateMaterial, with the source's two nested loops. The template is patched in place
      (so the changes outlive the call); nothing happens when the set is unavailable. */
  method UpdateMaterial(template: seq<Write>, m: Material, nodeName: string, sets: SetLookup)
    returns (newTemplate: seq<Write>, update: Option<Update>)
    ensures sets(m, nodeName).None? ==> newTemplate == template && update.None?
    ensures sets(m, nodeName).Some? ==>
              newTemplate == MergedTemplate(template, m.writes)
              && update == Some(Update(sets(m, nodeName).value, Gathered(newTemplate, sets(m, nodeName).value)))
    ensures update.Some? ==> |update.value.writes| <= |template|
  {
    var handle := sets(m, nodeName);
    if handle.None? {
      return template, None;
    }
    var target := handle.value;
    var t := template;
    var batch: seq<Write> := [];
    var i := 0;
    while i < |t|
      invariant i <= |t| == |template|
      invariant forall j :: 0 <= j < i ==> t[j] == OverrideByMaterial(template[j], m.writes)
      invariant forall j :: i <= j < |t| ==> t[j] == template[j]
      invariant batch == Gathered(t[..i], target)
    {
      var e := OverrideEntry(t[i], m.writes);
      ghost var before := t;
      t := t[i := e];
      assert t[..i] == before[..i];
      assert t[..i + 1][..i] == t[..i];
      if e.valid {
        batch := batch + [Retarget(e, target)];
      }
      i := i + 1;
    }
    assert t[..|t|] == t;
    newTemplate := t;
    update := Some(Update(target, batch));
  }

  /** The same effect on the visitor state, for use in the traversal. */
  function UpdateMaterialState(v: Visitor, m: Material, sets: SetLookup): (r: Visitor)
    ensures r.nodeName == v.nodeName && |r.template| == |v.template|
    ensures sets(m, v.nodeName).None? ==> r == v
    ensures sets(m, v.nodeName).Some? ==>
              r.updates == v.updates + [Update(sets(m, v.nodeName).value, Gathered(r.template, sets(m, v.nodeName).value))]
  {
    match sets(m, v.nodeName)
    case None => v
    case Some(target) =>
      var t := MergedTemplate(v.template, m.writes);
      Visitor(t, v.nodeName, v.updates + [Update(target, Gathered(t, target))])
  }

  /** visit(PhongMaterial&) and visit(BSDFMaterial&): run updateMaterial and let the driver go on. */
  function VisitMaterial(v: Visitor, m: Material, sets: SetLookup): (r: Hooked)
    ensures r.descend
    ensures r.visitor == UpdateMaterialState(v, m, sets)
  {
    Hooked(UpdateMaterialState(v, m, sets), true)
  }

  // ---------------------------------------------------------------------------
  // Node traversal

  /** Every batched update only carries valid writes aimed at its own set. */
  predicate WellFormed(updates: seq<Update>)
  {
    forall j, k :: 0 <= j < |updates| && 0 <= k < |updates[j].writes| ==>
      updates[j].writes[k].valid && updates[j].writes[k].dstSet == updates[j].target
  }

  /** The materials a node's own meshes lead to, in mesh order then sub-mesh order. */
  function OwnMaterials(node: Node): seq<Material>
  {
    MeshMaterials(node.meshes)
  }

  function MeshMaterials(meshes: seq<Mesh>): seq<Material>
  {
    if |meshes| == 0 then [] else SubMeshMaterials(meshes[0].subMeshes) + MeshMaterials(meshes[1..])
  }

  function SubMeshMaterials(subMeshes: seq<SubMesh>): seq<Material>
  {
    if |subMeshes| == 0 then []
    else (if subMeshes[0].material.Some? then [subMeshes[0].material.value] else []) + SubMeshMaterials(subMeshes[1..])
  }

  /** How many of `ms` have a set available for `nodeName`. */
  function CountAvailable(ms: seq<Material>, nodeName: string, sets: SetLookup): nat
  {
    if |ms| == 0 then 0 else (if sets(ms[0], nodeName).Some? then 1 else 0) + CountAvailable(ms[1..], nodeName, sets)
  }

  /** Visiting the materials in order under the current node name. */
  function VisitMaterials(v: Visitor, ms: seq<Material>, sets: SetLookup): (r: Visitor)
    ensures r.nodeName == v.nodeName && |r.template| == |v.template|
    ensures |r.updates| == |v.updates| + CountAvailable(ms, v.nodeName, sets)
    ensures r.updates[..|v.updates|] == v.updates
    ensures forall j :: |v.updates| <= j < |r.updates| ==>
              exists m :: m in ms && sets(m, v.nodeName) == Some(r.updates[j].target)
    ensures WellFormed(v.updates) ==> WellFormed(r.updates)
    decreases |ms|
  {
    if |ms| == 0 then v
    else
      var v1 := VisitMaterial(v, ms[0], sets).visitor;
      var r := VisitMaterials(v1, ms[1..], sets);
      assert r.updates[..|v.updates|] == r.updates[..|v1.updates|][..|v.updates|];
      assert forall m :: m in ms[1..] ==> m in ms;
      r
  }

  /** visit(Node&): patch the template with the node's writes, record the node's name,
      descend by hand into the meshes and then the children, and tell the driver not to
      descend again. */
  function VisitNode(v: Visitor, node: Node, sets: SetLookup, b: Bindings): (r: Hooked)
    ensures !r.descend
    ensures |r.visitor.template| == |v.template|
    ensures |v.updates| <= |r.visitor.updates| && r.visitor.updates[..|v.updates|] == v.updates
    ensures WellFormed(v.updates) ==> WellFormed(r.visitor.updates)
    decreases node, 1
  {
    var entered := Visitor(OverrideNode(v.template, node, b), node.name, v.updates);
    var own := VisitMaterials(entered, OwnMaterials(node), sets);
    Hooked(VisitChildren(own, node.children, sets, b), false)
  }

  function VisitChildren(v: Visitor, children: seq<Node>, sets: SetLookup, b: Bindings): (r: Visitor)
    ensures |r.template| == |v.template|
    ensures |v.updates| <= |r.updates| && r.updates[..|v.updates|] == v.updates
    ensures WellFormed(v.updates) ==> WellFormed(r.updates)
    decreases children, 0
  {
    if |children| == 0 then v
    else
      var v1 := VisitNode(v, children[0], sets, b).visitor;
      var r := VisitChildren(v1, children[1..], sets, b);
      assert r.updates[..|v.updates|] == r.updates[..|v1.updates|][..|v.updates|];
      r
  }

  /** Because the name is recorded before descending, the first updates a node visit
      issues are those of the node's own materials, each into that material's set for the
      node's own name. */
  lemma OwnMaterialsUseNodeName(v: Visitor, node: Node, sets: SetLookup, b: Bindings)
    ensures var r := VisitNode(v, node, sets, b).visitor;
            var n := CountAvailable(OwnMaterials(node), node.name, sets);
            |v.updates| + n <= |r.updates|
            && forall j :: |v.updates| <= j < |v.updates| + n ==>
                 exists m :: m in OwnMaterials(node) && sets(m, node.name) == Some(r.updates[j].target)
  {
    var entered := Visitor(OverrideNode(v.template, node, b), node.name, v.updates);
    var own := VisitMaterials(entered, OwnMaterials(node), sets);
    var r := VisitChildren(own, node.children, sets, b);
    assert VisitNode(v, node, sets, b).visitor == r;
    forall j | |v.updates| <= j < |own.updates|
      ensures r.updates[j] == own.updates[j]
    {
      assert r.updates[..|own.updates|][j] == own.updates[j];
    }
  }

  /** The first material with a set issues the first update: the template merged with that
      material's writes, gathered into its set. */
  lemma VisitMaterialsFirst(v: Visitor, ms: seq<Material>, sets: SetLookup)
    requires |ms| > 0 && sets(ms[0], v.nodeName).Some?
    ensures |VisitMaterials(v, ms, sets).updates| > |v.updates|
    ensures VisitMaterials(v, ms, sets).updates[|v.updates|]
            == Update(sets(ms[0], v.nodeName).value,
                      Gathered(MergedTemplate(v.template, ms[0].writes), sets(ms[0], v.nodeName).value))
  {
    var v1 := VisitMaterial(v, ms[0], sets).visitor;
    var r := VisitMaterials(v1, ms[1..], sets);
    assert r.updates[..|v1.updates|] == v1.updates;
    assert r.updates[|v.updates|] == r.updates[..|v1.updates|][|v.updates|];
  }

  /** A node visit issues its own materials' updates first, built from the template as
      patched with the node's transform and bone-transform writes, under the node's name;
      the children's updates come after them. */
  lemma VisitNodeOwnFirst(v: Visitor, node: Node, sets: SetLookup, b: Bindings)
    ensures |v.updates| + CountAvailable(OwnMaterials(node), node.name, sets) <= |VisitNode(v, node, sets, b).visitor.updates|
    ensures VisitNode(v, node, sets, b).visitor.updates[..|v.updates| + CountAvailable(OwnMaterials(node), node.name, sets)]
            == VisitMaterials(Visitor(OverrideNode(v.template, node, b), node.name, v.updates), OwnMaterials(node), sets).updates
    ensures |OwnMaterials(node)| > 0 && sets(OwnMaterials(node)[0], node.name).Some? ==>
              VisitNode(v, node, sets, b).visitor.updates[|v.updates|]
              == Update(sets(OwnMaterials(node)[0], node.name).value,
                        Gathered(MergedTemplate(OverrideNode(v.template, node, b), OwnMaterials(node)[0].writes),
                                 sets(OwnMaterials(node)[0], node.name).value))
  {
    var entered := Visitor(OverrideNode(v.template, node, b), node.name, v.updates);
    var own := VisitMaterials(entered, OwnMaterials(node), sets);
    var r := VisitChildren(own, node.children, sets, b);
    assert VisitNode(v, node, sets, b).visitor == r;
    assert r.updates[..|own.updates|] == own.updates;
    if |OwnMaterials(node)| > 0 && sets(OwnMaterials(node)[0], node.name).Some? {
      VisitMaterialsFirst(entered, OwnMaterials(node), sets);
      assert r.updates[|v.updates|] == r.updates[..|own.updates|][|v.updates|];
    }
  }
}

=== FILE: vectors.dfy ===
/** Three-component vectors and 4x4 matrices as the scene graph uses them. */
module Vectors {

  /** A glm::vec3 as three reals (float rounding is not modelled). */
  type Vec3 = v: seq<real> | |v| == 3 witness [0.0, 0.0, 0.0]

  /** A glm::bvec3 per-axis mask. */
  type BVec3 = b: seq<bool> | |b| == 3 witness [false, false, false]

  const Zero: Vec3 := [0.0, 0.0, 0.0]
  const One: Vec3 := [1.0, 1.0, 1.0]
  const NoAxes: BVec3 := [false, false, false]

  /** A 4x4 transform matrix, its sixteen cells in the order the importer reads them. */
  datatype Mat4 = Mat4(cells: seq<real>)

  /** The engine's trigonometric matrix decompositions, left uninterpreted: the model only
      relies on each being a fixed function of the matrix. */
  datatype Decomposer = Decomposer(
    translate: Mat4 -> Vec3,
    rotateRzRyRx: Mat4 -> Vec3,
    scale: Mat4 -> Vec3)
}

=== FILE: wrappers.dfy ===
/** Optional values. The engine passes shared pointers that may be null; the model
    uses None for a null pointer and Some(v) for a live one. */
module Wrappers {

  datatype Option<+T> = None | Some(value: T)
}
